=== FILE: README.md ===
# Visual pipeline editor — a Dafny model

This project models the client-side core of the DIY-AI visual pipeline editor:

- The canvas. A user drags agents and pipeline components from a sidebar palette onto a
  React Flow canvas and joins their handles with edges. The canvas saves the graph as a
  create-pipeline request and runs a saved pipeline once, showing the result in a panel.
- The template marketplace. It lists pipeline templates with a search and a category
  selector.
- The backend vocabulary. The canvas' save payload is read against the pipeline
  service's step and connection entities: their type enumerations, defaults and
  non-null columns.

Modules, one per part of the program:

| module | models |
|---|---|
| `Wrappers` | `Option` and `Result` |
| `Js` | the JavaScript operations the components rely on: truthiness, `\|\|`, template interpolation, decimal rendering of `Date.now()`, ASCII `toLowerCase`/`toUpperCase`, `includes`, `replace` of the first occurrence, `slice(0, n)`, `filter` |
| `Search` | the search expression the sidebar and the marketplace share |
| `Ports` | the `nodeTypes` registry and the handles (ports) each node component renders |
| `Palette` | the sidebar: the agent filter, the category buttons, the fixed pipeline components and the drag payload |
| `Templates` | the template marketplace |
| `ExecutionView` | the execution results panel |
| `Canvas` | the canvas: the editor state as a value, pure transition functions, the save payload, and the `PipelineCanvas` class whose methods update the state in place and are proved against those functions |
| `StepModel`, `ConnectionModel` | the pipeline step and connection entities |
| `Binding` | how the create request reads the saved steps and connections into those entities' enumerations |

Some of the world is passed in as parameters:

- The time (`Date.now()`) and the locale date text.
- The projected drop position.
- React Flow's `addEdge` routine.
- The outcome of the execute request.

The application mounts the canvas without a `pipelineId` prop (`App.js`). The model
therefore proves that, as shipped, execute never issues a request and no result is ever
shown.

## Model

| member | source | states |
|---|---|---|
| Js.Decimal | ai-agent-spec/ui-service/src/components/PipelineBuilder/PipelineCanvas.jsx:85 | the text of a millisecond time is a non-empty string of decimal digits with no leading zero; it is one character long exactly when the time is below 10 |
| Js.DecimalValue | ai-agent-spec/ui-service/src/components/PipelineBuilder/PipelineCanvas.jsx:85 | the decimal text of a time, read digit by digit, stands for that time |
| Js.DecimalInjective | ai-agent-spec/ui-service/src/components/PipelineBuilder/PipelineCanvas.jsx:85 | different times render to different texts |
| Js.SamePrefixCancels | ai-agent-spec/ui-service/src/components/PipelineBuilder/PipelineCanvas.jsx:85 | two ids with the same prefix are equal only if their suffixes are |
| Js.Lower | ai-agent-spec/ui-service/src/components/PipelineBuilder/Sidebar.jsx:78-80 | `toLowerCase` keeps the length, turns each ASCII capital into its lower-case letter (code + 32) and leaves every other character unchanged |
| Js.Upper | ai-agent-spec/ui-service/src/components/PipelineBuilder/PipelineCanvas.jsx:123 | `toUpperCase` keeps the length, turns each ASCII lower-case letter into its capital (code - 32) and leaves every other character unchanged |
| Js.LowerIdempotent | ai-agent-spec/ui-service/src/components/PipelineBuilder/Sidebar.jsx:78-80 | lower-casing twice is lower-casing once |
| Js.LowerEqualIffSameUpToCase | ai-agent-spec/ui-service/src/components/PipelineBuilder/Sidebar.jsx:78-80 | two strings lower-case alike if and only if they differ at most in the ASCII case of their letters |
| Js.LowerSameUpToCase | ai-agent-spec/ui-service/src/components/PipelineBuilder/Sidebar.jsx:78-80 | a string and its lower-cased form differ only in letter case |
| Js.ContainsIffOccurs | ai-agent-spec/ui-service/src/components/PipelineBuilder/Sidebar.jsx:78-80 | `includes` holds exactly when the term occurs at some index |
| Js.ContainsEmpty | ai-agent-spec/ui-service/src/components/PipelineBuilder/Sidebar.jsx:78-80 | every string includes the empty string |
| Js.IndexOf | ai-agent-spec/ui-service/src/components/TemplateMarketplace/TemplateMarketplace.jsx:182 | the index found is the first occurrence of the character |
| Js.ReplaceFirst | ai-agent-spec/ui-service/src/components/TemplateMarketplace/TemplateMarketplace.jsx:182 | `replace` with a string pattern changes only the first occurrence: same length; unchanged when the character is absent |
| Js.Take | ai-agent-spec/ui-service/src/components/PipelineBuilder/Sidebar.jsx:264 | `slice(0, n)` is the prefix of length `min(n, length)` |
| Js.Filter | ai-agent-spec/ui-service/src/components/PipelineBuilder/Sidebar.jsx:77-85 | `filter` keeps exactly the elements the test accepts, each as often as it occurs, in their original order |
| Js.FilterKeepsAll | ai-agent-spec/ui-service/src/components/PipelineBuilder/Sidebar.jsx:77-85 | a filter whose test accepts every element returns the list unchanged |
| Search.EmptyTermMatches | ai-agent-spec/ui-service/src/components/PipelineBuilder/Sidebar.jsx:78-80 | the empty search matches every entry |
| Search.SearchIgnoresTermCase | ai-agent-spec/ui-service/src/components/TemplateMarketplace/TemplateMarketplace.jsx:76-80 | two terms that differ only in letter case select the same entries |
| Search.SearchIgnoresNameCase | ai-agent-spec/ui-service/src/components/TemplateMarketplace/TemplateMarketplace.jsx:76-80 | two names that differ only in letter case match the same terms |
| Search.TagsIgnoreCase | ai-agent-spec/ui-service/src/components/PipelineBuilder/Sidebar.jsx:80 | tag lists that differ only in letter case contain a lower-cased term alike |
| Search.SearchIgnoresCase | ai-agent-spec/ui-service/src/components/PipelineBuilder/Sidebar.jsx:78-80 | entries and terms that differ only in letter case, in name, description, tags or term, give the same outcome |
| Search.NameHitMatches | ai-agent-spec/ui-service/src/components/PipelineBuilder/Sidebar.jsx:78 | a term found anywhere in the lower-cased name matches, whatever the description and tags |
| Ports.KindOf | ai-agent-spec/ui-service/src/components/PipelineBuilder/PipelineCanvas.jsx:22-27 | a type selects a kind only when it is that kind's registered key, and no kind when it is no kind's key |
| Ports.KindNameRoundTrip | ai-agent-spec/ui-service/src/components/PipelineBuilder/PipelineCanvas.jsx:22-27 | each of `trigger`, `agent`, `condition` and `approval` selects its own component and no other key selects it |
| Ports.KindOfRegistered | ai-agent-spec/ui-service/src/components/PipelineBuilder/PipelineCanvas.jsx:22-27 | exactly `agent`, `trigger`, `condition` and `approval` have a node component |
| Ports.PortName | ai-agent-spec/ui-service/src/components/PipelineBuilder/PipelineCanvas.jsx:129-130 | a saved port name is the handle id when the id is truthy, else "default" |
| Ports.OutputPortNames | ai-agent-spec/ui-service/src/components/PipelineBuilder/ConditionNode.jsx:45-66 | one port name per source handle, in render order: a named handle is saved under its id, and "default" names exactly the unnamed handle |
| Ports.TriggerPorts | ai-agent-spec/ui-service/src/components/PipelineBuilder/TriggerNode.jsx:37-42 | a trigger has no target handle and one unnamed source handle, saved as port "default" |
| Ports.AgentPorts | ai-agent-spec/ui-service/src/components/PipelineBuilder/AgentNode.jsx:14-65 | an agent accepts input and has the outputs "default" and "error" |
| Ports.ConditionPorts | ai-agent-spec/ui-service/src/components/PipelineBuilder/ConditionNode.jsx:14-66 | a condition accepts input and has the outputs "true" and "false", none unnamed |
| Ports.ApprovalPorts | ai-agent-spec/ui-service/src/components/PipelineBuilder/ApprovalNode.jsx:14-66 | an approval accepts input and has the outputs "approved" and "rejected", none unnamed |
| Ports.OnlyTriggerRejectsInput | ai-agent-spec/ui-service/src/components/PipelineBuilder/TriggerNode.jsx:37-42 | a kind accepts input if and only if it is not the trigger |
| Ports.OutputPortNamesDistinct | ai-agent-spec/ui-service/src/components/PipelineBuilder/AgentNode.jsx:47-65 | the output ports of one kind have pairwise different names |
| Ports.TriggerSubtitle | ai-agent-spec/ui-service/src/components/PipelineBuilder/TriggerNode.jsx:33 | the trigger subtitle is the trigger type when truthy, else "manual" |
| Ports.AgentIdLine | ai-agent-spec/ui-service/src/components/PipelineBuilder/AgentNode.jsx:36-44 | the agent id line appears exactly when the id is truthy |
| Palette.FilterAgents | ai-agent-spec/ui-service/src/components/PipelineBuilder/Sidebar.jsx:77-85 | the listed agents are exactly those matching the search and the category, each as often as in the list, in list order |
| Palette.EmptySearchAllCategoryListsEveryAgent | ai-agent-spec/ui-service/src/components/PipelineBuilder/Sidebar.jsx:7-8 | the initial search `''` and category `all` list every agent |
| Palette.CategoryIsExact | ai-agent-spec/ui-service/src/components/PipelineBuilder/Sidebar.jsx:82 | a category other than `all` lists only agents of exactly that category |
| Palette.CategoryButtonsFilter | ai-agent-spec/ui-service/src/components/PipelineBuilder/Sidebar.jsx:69-85 | the first category button is `all`; each other button lists exactly the searched agents of its own category |
| Palette.DragPayload | ai-agent-spec/ui-service/src/components/PipelineBuilder/Sidebar.jsx:87-94 | the drag payload is the item with its type overwritten by `agent`, every other field kept |
| Palette.SpecialNodesDragAsAgents | ai-agent-spec/ui-service/src/components/PipelineBuilder/Sidebar.jsx:96-125 | none of the four pipeline components has type `agent`, yet each is dragged as one |
| Palette.TagsShown | ai-agent-spec/ui-service/src/components/PipelineBuilder/Sidebar.jsx:262-264 | tags are shown exactly when present: the first three, or all of them when there are fewer |
| Templates.FilterTemplates | ai-agent-spec/ui-service/src/components/TemplateMarketplace/TemplateMarketplace.jsx:76-80 | the listed templates are exactly those matching the search, each as often as in the list, in list order |
| Templates.EmptySearchKeepsEveryTemplate | ai-agent-spec/ui-service/src/components/TemplateMarketplace/TemplateMarketplace.jsx:8 | the initial empty search lists every template |
| Templates.FilterIgnoresCategory | ai-agent-spec/ui-service/src/components/TemplateMarketplace/TemplateMarketplace.jsx:76-80 | whether a template matches the search does not depend on its category |
| Templates.FetchParams | ai-agent-spec/ui-service/src/components/TemplateMarketplace/TemplateMarketplace.jsx:18 | the request carries `category` exactly when the selection is not `all`, and then carries the selection |
| Templates.CategoryList | ai-agent-spec/ui-service/src/components/TemplateMarketplace/TemplateMarketplace.jsx:67-74 | the list starts with `all` and continues with the server's categories; on failure it is the fixed five |
| Templates.CategoryLabel | ai-agent-spec/ui-service/src/components/TemplateMarketplace/TemplateMarketplace.jsx:182 | the label is the category with only its first dash turned into a space |
| Templates.SecondDashKept | ai-agent-spec/ui-service/src/components/TemplateMarketplace/TemplateMarketplace.jsx:182 | `a-b-c` is labelled `a b-c` |
| Templates.TagsShown | ai-agent-spec/ui-service/src/components/TemplateMarketplace/TemplateMarketplace.jsx:243 | tags are shown exactly when present: the first three, or all of them when there are fewer |
| ExecutionView.Guarded | ai-agent-spec/ui-service/src/components/PipelineBuilder/ExecutionPanel.jsx:68-78 | a guarded row appears exactly when its value is truthy; a value of 0 renders a bare `0` instead |
| ExecutionView.OutputText | ai-agent-spec/ui-service/src/components/PipelineBuilder/ExecutionPanel.jsx:92-95 | a string output is shown verbatim, any other output serialised |
| ExecutionView.Render | ai-agent-spec/ui-service/src/components/PipelineBuilder/ExecutionPanel.jsx:42-117 | the error view exactly when the error is truthy; otherwise the status (or `COMPLETED`), completed colours exactly for status `COMPLETED`, and each row exactly when its field is truthy, showing the id, the duration, the output (verbatim or serialised) and the serialised step results; a field of 0 leaves a bare `0` |
| ExecutionView.MissingStatusShowsCompletedUncoloured | ai-agent-spec/ui-service/src/components/PipelineBuilder/ExecutionPanel.jsx:61-64 | a missing status reads `COMPLETED` but keeps the not-completed colours |
| ExecutionView.ZeroDurationHidden | ai-agent-spec/ui-service/src/components/PipelineBuilder/ExecutionPanel.jsx:74-78 | a duration of 0 hides the duration row and leaves a bare `0` |
| ExecutionView.FailureShowsOnlyError | ai-agent-spec/ui-service/src/components/PipelineBuilder/PipelineCanvas.jsx:156-158 | a thrown request with a message shows only that message |
| ExecutionView.EmptyMessageFailureLooksCompleted | ai-agent-spec/ui-service/src/components/PipelineBuilder/PipelineCanvas.jsx:156-158 | a thrown request with an empty message shows status `COMPLETED` and no other row |
| Canvas.DroppedNode | ai-agent-spec/ui-service/src/components/PipelineBuilder/PipelineCanvas.jsx:84-95 | the dropped node's id is the payload type, "-" and the decimal time; its type and position are the payload's type and the drop position; its label is the display name, or the agent id when the name is empty; its config is the payload's, or `{}` when absent; agent id and both schemas are carried over |
| Canvas.ExecuteCallFor | ai-agent-spec/ui-service/src/components/PipelineBuilder/PipelineCanvas.jsx:142-154 | a request is issued exactly when the pipeline id is truthy; it is the manual, synchronous test request for that id |
| Canvas.RecordedResult | ai-agent-spec/ui-service/src/components/PipelineBuilder/PipelineCanvas.jsx:155-158 | the recorded result is the response, or, when the request throws, a record whose only field is the error message |
| Canvas.InitialCanvas | ai-agent-spec/ui-service/src/components/PipelineBuilder/PipelineCanvas.jsx:29-47 | a new canvas holds only the trigger `trigger-1`, with no agent id and no edge; nothing is executing and no result is shown |
| Canvas.AfterDrop | ai-agent-spec/ui-service/src/components/PipelineBuilder/PipelineCanvas.jsx:68-100 | a falsy payload changes nothing; a truthy one appends exactly the dropped node and leaves every other node and every edge unchanged |
| Canvas.AfterConnect | ai-agent-spec/ui-service/src/components/PipelineBuilder/PipelineCanvas.jsx:53-61 | a connect replaces the edges by what `addEdge` makes of them and changes nothing else |
| Canvas.AfterExecute | ai-agent-spec/ui-service/src/components/PipelineBuilder/PipelineCanvas.jsx:142-162 | without a truthy id nothing changes; otherwise the outcome is recorded and the executing flag ends cleared; nodes and edges never change |
| Canvas.AfterClose | ai-agent-spec/ui-service/src/components/PipelineBuilder/PipelineCanvas.jsx:264-269 | closing the panel clears the result and nothing else |
| Canvas.ResultsPanel | ai-agent-spec/ui-service/src/components/PipelineBuilder/PipelineCanvas.jsx:264-269 | the results panel appears exactly when a result is recorded, rendered from it |
| Canvas.Steps | ai-agent-spec/ui-service/src/components/PipelineBuilder/PipelineCanvas.jsx:116-125 | one step per node, in node order, each with the node's id, agent id, label, position, config, upper-cased type and `enabled`; fails exactly when some node's type is undefined, naming such a node |
| Canvas.Connections | ai-agent-spec/ui-service/src/components/PipelineBuilder/PipelineCanvas.jsx:126-132 | one connection per edge, in edge order, with the edge's endpoints, falsy handles saved as "default", and type `DATA` |
| Canvas.SavedPipelineId | ai-agent-spec/ui-service/src/components/PipelineBuilder/PipelineCanvas.jsx:108 | the saved id is the prop when truthy, else `pipeline-` and the time |
| Canvas.SavePayload | ai-agent-spec/ui-service/src/components/PipelineBuilder/PipelineCanvas.jsx:106-133 | the save fails exactly when the steps fail; otherwise it posts the id, the name "AI Pipeline " with the date text, the steps, the connections and the fixed description and author |
| Canvas.SavedPortsAreDeclared | ai-agent-spec/ui-service/src/components/PipelineBuilder/PipelineCanvas.jsx:126-132 | a saved connection between rendered handles names an output port declared by its source kind, and target port "default" |
| Canvas.TriggerEdges | ai-agent-spec/ui-service/src/components/PipelineBuilder/TriggerNode.jsx:37-42 | no rendered edge enters a trigger; every edge leaving one is saved with port "default" |
| Canvas.BranchEdgesNeverDefault | ai-agent-spec/ui-service/src/components/PipelineBuilder/ConditionNode.jsx:45-66 | an edge leaving a condition or an approval is never saved with source port "default" |
| Canvas.IdleWithoutPipelineId | ai-agent-spec/ui-service/src/components/PipelineBuilder/PipelineCanvas.jsx:143-146 | without a pipeline id no sequence of actions records a result or leaves the canvas executing |
| Canvas.ShippedAppNeverExecutes | ai-agent-spec/ui-service/src/App.js:40-52 | as mounted by the application, execute issues no request and no results panel ever appears |
| Canvas.ReplayNodes | ai-agent-spec/ui-service/src/components/PipelineBuilder/PipelineCanvas.jsx:97 | over any session, the nodes are the initial ones followed by the dropped nodes, in drop order |
| Canvas.SidebarDroppedNodes | ai-agent-spec/ui-service/src/components/PipelineBuilder/Sidebar.jsx:87-94 | in a session of sidebar drops, the i-th dropped node is an `agent` whose id is made from the i-th drop time |
| Canvas.AgentNodeIdsDistinct | ai-agent-spec/ui-service/src/components/PipelineBuilder/PipelineCanvas.jsx:85 | agent nodes get the same id if and only if they are dropped at the same time |
| Canvas.AgentNodeIdNotInitial | ai-agent-spec/ui-service/src/components/PipelineBuilder/PipelineCanvas.jsx:29-40 | no agent node takes the id `trigger-1` of the initial trigger |
| Canvas.SidebarSessionIdsDistinct | ai-agent-spec/ui-service/src/components/PipelineBuilder/PipelineCanvas.jsx:84-97 | node ids stay unique through a sidebar session if and only if no two drops share a millisecond |
| Canvas.SidebarSessionKinds | ai-agent-spec/ui-service/src/components/PipelineBuilder/Sidebar.jsx:87-94 | a sidebar session holds only trigger and agent nodes |
| Canvas.SidebarSessionSaves | ai-agent-spec/ui-service/src/components/PipelineBuilder/PipelineCanvas.jsx:116-125 | the save payload of a sidebar session is always built; this does not mean the backend can store it (see `Binding.InitialTriggerStepBreaksNonNull`) |
| Canvas.DroppedTriggerCanCollide | ai-agent-spec/ui-service/src/components/PipelineBuilder/PipelineCanvas.jsx:85 | a `trigger` payload dropped at time 1 takes the id of the initial trigger |
| Canvas.PipelineCanvas.constructor | ai-agent-spec/ui-service/src/components/PipelineBuilder/PipelineCanvas.jsx:43-47 | the component mounts in the initial state |
| Canvas.PipelineCanvas.Drop | ai-agent-spec/ui-service/src/components/PipelineBuilder/PipelineCanvas.jsx:68-100 | the state after a drop is `AfterDrop` of the state before |
| Canvas.PipelineCanvas.Connect | ai-agent-spec/ui-service/src/components/PipelineBuilder/PipelineCanvas.jsx:53-61 | the state after a connect is `AfterConnect` of the state before |
| Canvas.PipelineCanvas.Save | ai-agent-spec/ui-service/src/components/PipelineBuilder/PipelineCanvas.jsx:106-140 | the payload posted is `SavePayload` of the current nodes and edges; the state is unchanged |
| Canvas.PipelineCanvas.Execute | ai-agent-spec/ui-service/src/components/PipelineBuilder/PipelineCanvas.jsx:142-162 | the request issued is `ExecuteCallFor` the id, the flag is set while it is outstanding, and the state after is `AfterExecute` of the state before |
| Canvas.PipelineCanvas.DismissResults | ai-agent-spec/ui-service/src/components/PipelineBuilder/PipelineCanvas.jsx:267 | the state after closing the panel is `AfterClose` of the state before |
| StepModel.ParseStepType | ai-agent-spec/pipeline-service/src/main/java/com/marketplace/pipeline_service/model/PipelineStep.java:64-73 | a name reads as the constant with that name, and is rejected exactly when no constant has it |
| StepModel.StepTypeNameRoundTrip | ai-agent-spec/pipeline-service/src/main/java/com/marketplace/pipeline_service/model/PipelineStep.java:64-73 | every step type reads back from its name |
| StepModel.StepTypesExactly | ai-agent-spec/pipeline-service/src/main/java/com/marketplace/pipeline_service/model/PipelineStep.java:64-73 | the vocabulary is exactly the eight constants, each once |
| StepModel.NewStepDefaults | ai-agent-spec/pipeline-service/src/main/java/com/marketplace/pipeline_service/model/PipelineStep.java:22-57 | a new step has timeout 300 s, 3 retries, is enabled and is an `AGENT` step; its non-null columns are still unset |
| ConnectionModel.ParseConnectionType | ai-agent-spec/pipeline-service/src/main/java/com/marketplace/pipeline_service/model/Connection.java:50-56 | a name reads as the constant with that name, and is rejected exactly when no constant has it |
| ConnectionModel.ConnectionTypeNameRoundTrip | ai-agent-spec/pipeline-service/src/main/java/com/marketplace/pipeline_service/model/Connection.java:50-56 | every connection type reads back from its name |
| ConnectionModel.ConnectionTypesExactly | ai-agent-spec/pipeline-service/src/main/java/com/marketplace/pipeline_service/model/Connection.java:50-56 | the vocabulary is exactly the five constants, each once |
| ConnectionModel.NewConnectionDefaults | ai-agent-spec/pipeline-service/src/main/java/com/marketplace/pipeline_service/model/Connection.java:22-43 | a new connection uses port "default" at both ends and type `DATA`; its endpoint columns are still unset |
| Binding.BindStep | ai-agent-spec/pipeline-service/src/main/java/com/marketplace/pipeline_service/dto/PipelineCreateRequest.java:37-58 | a posted step is read exactly when its type names a step type, keeping its id, agent id, name, position, static configuration and `enabled`; the description, input and output mappings, condition, timeout and retry count stay null; an unknown name is reported |
| Binding.BindConnection | ai-agent-spec/pipeline-service/src/main/java/com/marketplace/pipeline_service/dto/PipelineCreateRequest.java:63-71 | a posted connection is read exactly when its type names a connection type, keeping its endpoints and ports; its data mapping and condition stay null |
| Binding.SavedStepType | ai-agent-spec/ui-service/src/components/PipelineBuilder/PipelineCanvas.jsx:123 | a node's saved type names a step type exactly when the backend reads its step; the type read is the one whose constant name is the upper-cased node type, and it is the type of the bound step |
| Binding.UiTypesInVocabulary | ai-agent-spec/pipeline-service/src/main/java/com/marketplace/pipeline_service/model/PipelineStep.java:64-73 | the upper-cased `trigger`, `agent`, `condition` and `delay` are step types; the upper-cased `approval` is not |
| Binding.ApprovalNodeRejected | ai-agent-spec/ui-service/src/components/PipelineBuilder/PipelineCanvas.jsx:123 | an approval node is saved as `APPROVAL`, which the backend rejects |
| Binding.RegisteredKindsBind | ai-agent-spec/ui-service/src/components/PipelineBuilder/PipelineCanvas.jsx:116-125 | trigger, agent and condition nodes are read as steps of the same-named type |
| Binding.SavedConnectionsBind | ai-agent-spec/ui-service/src/components/PipelineBuilder/PipelineCanvas.jsx:126-132 | every saved connection is read, as a `DATA` connection |
| Binding.UnnamedHandlesMatchEntityDefaults | ai-agent-spec/pipeline-service/src/main/java/com/marketplace/pipeline_service/model/Connection.java:28-43 | a connection saved from two unnamed handles reads exactly as the defaults of a new connection |
| Binding.InitialTriggerStepBreaksNonNull | ai-agent-spec/pipeline-service/src/main/java/com/marketplace/pipeline_service/model/PipelineStep.java:25-26 | the initial trigger is read with no agent id, which violates the step's non-null `agentId` column |
| Binding.SidebarSessionBinds | ai-agent-spec/ui-service/src/components/PipelineBuilder/PipelineCanvas.jsx:116-125 | every step a sidebar session saves is read, as a trigger or an agent step |

## Left out

- React Flow itself is not modelled. `addEdge` is a parameter of a connect, so its
  de-duplication of edges is not modelled. Node and edge deletion, node moves
  (`onNodesChange`, `onEdgesChange`) and node selection with its properties panel are
  not modelled either.
- The pixel projection of a drop (`getBoundingClientRect`, `project`) is not modelled.
  The drop position is a parameter.
- The `dropEffect` of a drag-over and all styling are not modelled.
- `JSON.parse` of missing drag data throws. A drop is modelled from the parsed payload
  onwards, with `None` for a falsy one.
- `Js.Interpolate` renders a missing type as "undefined": a payload whose `type` is
  `null` would get an id starting "null-", and null and undefined are merged here. The
  sidebar never sends such a payload, and saving either throws.
- Positions are `real`s carried through unchanged. Times and numbers in results are
  integers, so fractional or non-finite JavaScript numbers are not modelled.
- The canvas layout (viewport and zoom) of the save payload is not modelled.
- The save's `displayName` is "AI Pipeline " followed by the locale date text, which is
  a parameter.
- `onSave`'s network request and its error logging are not modelled.
- `alert` and `console` calls are left out.
- Execute is modelled as one step that sees the outcome of the request. The
  interleaving of the awaited request with other user actions is not modelled.
- The disabled state of the execute button while a request is outstanding is not
  modelled.
- A response that is itself falsy would hide the results panel. This is not modelled:
  a response is always a result object.
- Template loading into the canvas is not modelled: the canvas only closes the
  marketplace on selection.
- The marketplace's open/close flag is not modelled.
- Network requests are left out: the sidebar's agent list and the marketplace's
  template list are inputs.
- The development mock data used when those requests fail is not modelled, except for
  the fixed category list.
- The loading indicators are not modelled.
- The marketplace's `textTransform: capitalize` of category labels is styling and is
  left out.
- `toLowerCase` and `toUpperCase` are modelled on ASCII letters only. Other Unicode
  case mappings are left out.
- An agent without `displayName` or `description` would make the filter throw. This is
  not modelled: both are strings.
- `JSON.stringify` of objects and arrays is carried as the already-rendered text
  (`Composite`). Escaping inside strings is not modelled.
- No node component is registered for `delay` nodes. React Flow falls back to its
  default node for them, which is not modelled; `Ports.KindOf` returns `None` for them.
- The pipeline service's controllers, its persistence and the service that copies
  request fields into entities are not part of this model. `Binding` models only how
  Jackson reads the enum fields by constant name, and leaves unsent fields null.
- The other services (catalog, runner) are not part of this model.

=== FILE: binding.dfy ===
/** How the backend's create request reads a saved pipeline: each posted step and
    connection becomes a step or connection definition, whose type fields are the
    backend's enumerations and are read by constant name. */
module Binding {
  import opened Wrappers
  import opened Js
  import opened Ports
  import opened Canvas
  import S = StepModel
  import C = ConnectionModel

  /** A step of the create request; `None` is null. */
  datatype StepDefinition = StepDefinition(
    stepId: Option<string>,
    agentId: Option<string>,
    displayName: Option<string>,
    description: Option<string>,
    positionX: real,
    positionY: real,
    inputMapping: Option<Config>,
    outputMapping: Option<Config>,
    staticConfig: Config,
    timeoutSeconds: Option<int>,
    maxRetries: Option<int>,
    enabled: Option<bool>,
    condition: Option<string>,
    stepType: Option<S.StepType>)

  /** A connection of the create request; `None` is null. */
  datatype ConnectionDefinition = ConnectionDefinition(
    sourceStepId: Option<string>,
    targetStepId: Option<string>,
    sourcePort: Option<string>,
    targetPort: Option<string>,
    dataMapping: Option<Config>,
    condition: Option<string>,
    connectionType: Option<C.ConnectionType>)

  /** A type name that is not a constant of its enumeration rejects the request. */
  datatype BindError = UnknownStepType(name: string) | UnknownConnectionType(name: string)

  /** Reads a posted step; fields the step does not send stay null. */
  function BindStep(s: UiStep): (r: Result<StepDefinition, BindError>)
    ensures r.Success? <==> S.ParseStepType(s.stepType).Some?
    ensures r.Failure? ==> r.error == UnknownStepType(s.stepType)
    ensures r.Success? ==> r.value.stepType.Some? && S.StepTypeName(r.value.stepType.value) == s.stepType
    ensures r.Success? ==> r.value.stepId == Some(s.stepId) && r.value.agentId == s.agentId
    ensures r.Success? ==> r.value.displayName == s.displayName && r.value.enabled == Some(s.enabled)
    ensures r.Success? ==> r.value.positionX == s.positionX && r.value.positionY == s.positionY
    ensures r.Success? ==> r.value.staticConfig == s.staticConfig
    ensures r.Success? ==> r.value.description == None && r.value.condition == None
    ensures r.Success? ==> r.value.inputMapping == None && r.value.outputMapping == None
    ensures r.Success? ==> r.value.timeoutSeconds == None && r.value.maxRetries == None
  {
    match S.ParseStepType(s.stepType)
    case None => Failure(UnknownStepType(s.stepType))
    case Some(t) =>
      Success(StepDefinition(
        Some(s.stepId), s.agentId, s.displayName, None, s.positionX, s.positionY,
        None, None, s.staticConfig, None, None, Some(s.enabled), None, Some(t)))
  }

  /** Reads a posted connection. */
  function BindConnection(c: UiConnection): (r: Result<ConnectionDefinition, BindError>)
    ensures r.Success? <==> C.ParseConnectionType(c.connectionType).Some?
    ensures r.Failure? ==> r.error == UnknownConnectionType(c.connectionType)
    ensures r.Success? ==> r.value.connectionType.Some? && C.ConnectionTypeName(r.value.connectionType.value) == c.connectionType
    ensures r.Success? ==> r.value.sourceStepId == Some(c.sourceStepId) && r.value.targetStepId == Some(c.targetStepId)
    ensures r.Success? ==> r.value.sourcePort == Some(c.sourcePort) && r.value.targetPort == Some(c.targetPort)
    ensures r.Success? ==> r.value.dataMapping == None && r.value.condition == None
  {
    match C.ParseConnectionType(c.connectionType)
    case None => Failure(UnknownConnectionType(c.connectionType))
    case Some(t) =>
      Success(ConnectionDefinition(
        Some(c.sourceStepId), Some(c.targetStepId), Some(c.sourcePort), Some(c.targetPort), None, None, Some(t)))
  }

  /** The step type a canvas node is saved as, read by the backend. */
  function SavedStepType(n: Node): (t: Option<S.StepType>)
    requires Typed(n)
    ensures t.Some? <==> BindStep(StepOf(n)).Success?
    ensures t.Some? ==> S.StepTypeName(t.value) == Upper(n.nodeType.value)
    ensures t.Some? ==> BindStep(StepOf(n)).value.stepType == t
  {
    S.ParseStepType(Upper(n.nodeType.value))
  }

  /** The upper-cased `trigger`, `agent`, `condition` and `delay` are step types;
      the upper-cased `approval` is not, since the vocabulary spells it
      `HUMAN_APPROVAL`. */
  lemma UiTypesInVocabulary()
    ensures S.ParseStepType(Upper("trigger")) == Some(S.TRIGGER)
    ensures S.ParseStepType(Upper("agent")) == Some(S.AGENT)
    ensures S.ParseStepType(Upper("condition")) == Some(S.CONDITION)
    ensures S.ParseStepType(Upper("delay")) == Some(S.DELAY)
    ensures S.ParseStepType(Upper("approval")) == None
  {
    TriggerStepType();
    AgentStepType();
    ConditionStepType();
    DelayStepType();
    ApprovalStepType();
  }

  // Each node type is upper-cased in a proof of its own, then read in another.
  lemma TriggerStepType() ensures S.ParseStepType(Upper("trigger")) == Some(S.TRIGGER) { UpperTrigger(); }
  lemma AgentStepType() ensures S.ParseStepType(Upper("agent")) == Some(S.AGENT) { UpperAgent(); }
  lemma ConditionStepType() ensures S.ParseStepType(Upper("condition")) == Some(S.CONDITION) { UpperCondition(); }
  lemma DelayStepType() ensures S.ParseStepType(Upper("delay")) == Some(S.DELAY) { UpperDelay(); }
  lemma ApprovalStepType() ensures Upper("approval") == "APPROVAL" && S.ParseStepType(Upper("approval")) == None { UpperApproval(); }

  lemma UpperTrigger() ensures Upper("trigger") == "TRIGGER" { }
  lemma UpperAgent() ensures Upper("agent") == "AGENT" { }
  lemma UpperCondition() ensures Upper("condition") == "CONDITION" { }
  lemma UpperDelay() ensures Upper("delay") == "DELAY" { }
  lemma UpperApproval() ensures Upper("approval") == "APPROVAL" { }

  /** A canvas holding an approval node cannot be read by the backend. */
  lemma ApprovalNodeRejected(n: Node)
    requires n.nodeType == Some("approval")
    ensures BindStep(StepOf(n)) == Failure(UnknownStepType("APPROVAL"))
  {
    ApprovalStepType();
  }

  /** A node of a registered kind other than approval is read as the step type of the
      same name. */
  lemma RegisteredKindsBind(n: Node)
    requires KindOf(n.nodeType) in {Some(Trigger), Some(Agent), Some(Condition)}
    ensures Typed(n) && BindStep(StepOf(n)).Success?
  {
    if n.nodeType == Some("trigger") {
      TriggerStepType();
    } else if n.nodeType == Some("agent") {
      AgentStepType();
    } else {
      assert n.nodeType == Some("condition");
      ConditionStepType();
    }
  }

  /** Every saved connection is read, as a `DATA` connection. */
  lemma SavedConnectionsBind(edges: seq<Edge>, i: int)
    requires 0 <= i < |edges|
    ensures BindConnection(Connections(edges)[i]).Success?
    ensures BindConnection(Connections(edges)[i]).value.connectionType == Some(C.DATA)
  {
  }

  /** A connection saved from two unnamed handles reads exactly as the defaults a new
      connection entity starts from. */
  lemma UnnamedHandlesMatchEntityDefaults(e: Edge)
    requires e.sourceHandle == None && e.targetHandle == None
    ensures BindConnection(ConnectionOf(e)).Success?
    ensures BindConnection(ConnectionOf(e)).value.sourcePort == C.NewConnectionEntity.sourcePort
    ensures BindConnection(ConnectionOf(e)).value.targetPort == C.NewConnectionEntity.targetPort
    ensures BindConnection(ConnectionOf(e)).value.connectionType == C.NewConnectionEntity.connectionType
  {
  }

  /** The step saved for the initial trigger has no agent id, so a step entity taking
      its identifying columns violates the entity's non-null `agentId` column. */
  lemma InitialTriggerStepBreaksNonNull()
    ensures BindStep(StepOf(InitialTrigger)).Success?
    ensures BindStep(StepOf(InitialTrigger)).value.agentId == None
    ensures !S.NonNullColumnsSet(S.NewStepEntity.(
      stepId := BindStep(StepOf(InitialTrigger)).value.stepId,
      agentId := BindStep(StepOf(InitialTrigger)).value.agentId,
      displayName := BindStep(StepOf(InitialTrigger)).value.displayName))
  {
    TriggerStepType();
  }

  /** Every step a sidebar session saves is read, as a trigger or an agent step. */
  lemma SidebarSessionBinds(pipelineId: Option<string>, actions: seq<UserAction>, n: Node)
    requires SidebarDrops(actions)
    requires n in Replay(Initial(), pipelineId, actions).nodes
    ensures Typed(n) && SavedStepType(n) in {Some(S.TRIGGER), Some(S.AGENT)}
  {
    SidebarSessionKinds(pipelineId, actions, n);
    if n.nodeType == Some("trigger") {
      TriggerStepType();
    } else {
      assert n.nodeType == Some("agent");
      AgentStepType();
    }
  }
}

=== FILE: canvas.dfy ===
/** The pipeline canvas: a node list and an edge list edited by drops and connects,
    the save payload built from them, and the execute state machine that records the
    last execution result. Time (`Date.now()`), the edge-adding routine of the graph
    library and the outcome of the backend call are parameters. */
module Canvas {
  import opened Wrappers
  import opened Js
  import opened Ports
  import opened Palette
  import opened ExecutionView

  /** Canvas coordinates, carried through unchanged. */
  datatype Position = Position(x: real, y: real)

  datatype NodeData = NodeData(
    labelText: Option<string>,  // `data.label`
    agentId: Option<string>,
    config: Config,
    triggerType: Option<string>,
    inputSchema: Option<string>,
    outputSchema: Option<string>)

  /** A node; `nodeType` is its key into the node-kind registry. */
  datatype Node = Node(id: string, nodeType: Option<string>, position: Position, data: NodeData)

  /** An edge between two handles; a handle is `None` when it has no id. */
  datatype Edge = Edge(source: string, sourceHandle: Option<string>, target: string, targetHandle: Option<string>)

  /** The single node a new canvas starts with. */
  const InitialTrigger := Node(
    "trigger-1", Some("trigger"), Position(100.0, 100.0),
    NodeData(Some("Pipeline Trigger"), None, map[], Some("manual"), None, None))

  /** The node a drop builds from a truthy payload at time `now` (milliseconds): its id
      is the payload type, a dash and the time; its label the display name, or the
      agent id when the name is empty; its config the payload's, or `{}`. */
  function DroppedNode(p: Item, now: nat, position: Position): (n: Node)
    ensures n.id == Interpolate(p.itemType) + "-" + Decimal(now) && n.nodeType == p.itemType
    ensures n.position == position
    ensures p.displayName != "" ==> n.data.labelText == Some(p.displayName)
    ensures p.displayName == "" ==> n.data.labelText == p.agentId
    ensures p.config.Some? ==> n.data.config == p.config.value
    ensures p.config.None? ==> n.data.config == map[]
    ensures n.data.agentId == p.agentId && n.data.triggerType == None
    ensures n.data.inputSchema == p.inputSchema && n.data.outputSchema == p.outputSchema
  {
    Node(
      Interpolate(p.itemType) + "-" + Decimal(now),
      p.itemType,
      position,
      NodeData(
        Or(Some(p.displayName), p.agentId),
        p.agentId,
        if p.config.Some? then p.config.value else map[],
        None,
        p.inputSchema,
        p.outputSchema))
  }

  // ---------------------------------------------------------------------------
  // Execution requests and outcomes
  // ---------------------------------------------------------------------------

  datatype ExecuteRequest = ExecuteRequest(inputMessage: string, triggeredBy: string, executionMode: string)

  /** A call to the execute endpoint of one pipeline. */
  datatype ExecuteCall = ExecuteCall(pipelineId: string, request: ExecuteRequest)

  /** What the backend call did: answered with a result, or threw with a message. */
  datatype ExecutionOutcome = Responded(result: ExecutionResult) | Threw(message: string)

  const TestRequest := ExecuteRequest("Test execution", "manual", "sync")

  /** The call execute issues: none without a truthy pipeline id, otherwise the fixed
      manual, synchronous test request. */
  function ExecuteCallFor(pipelineId: Option<string>): (call: Option<ExecuteCall>)
    ensures call.Some? <==> Truthy(pipelineId)
    ensures call.Some? ==> call.value.pipelineId == pipelineId.value
    ensures call.Some? ==> call.value.request == ExecuteRequest("Test execution", "manual", "sync")
  {
    if Truthy(pipelineId) then Some(ExecuteCall(pipelineId.value, TestRequest)) else None
  }

  /** The result recorded for an outcome: the response, or `{ error: message }`. */
  function RecordedResult(outcome: ExecutionOutcome): (r: ExecutionResult)
    ensures outcome.Responded? ==> r == outcome.result
    ensures outcome.Threw? ==> r.error == Str(outcome.message)
    ensures outcome.Threw? ==> && r.status == Undefined && r.executionId == Undefined
                               && r.executionTimeMs == Undefined && r.finalOutput == Undefined
                               && r.stepResults == Undefined
  {
    match outcome
    case Responded(result) => result
    case Threw(message) => ErrorResult(message)
  }

  // ---------------------------------------------------------------------------
  // Editor state and its transitions
  // ---------------------------------------------------------------------------

  /** The canvas state: nodes, edges, the executing flag and the last result. */
  datatype Editor = Editor(nodes: seq<Node>, edges: seq<Edge>, isExecuting: bool, executionResults: Option<ExecutionResult>)

  function Initial(): Editor
  {
    Editor([InitialTrigger], [], false, None)
  }

  /** A new canvas holds only the trigger `trigger-1`, without an agent id, and no edge;
      nothing is executing and no result is shown. */
  lemma InitialCanvas()
    ensures |Initial().nodes| == 1 && Initial().edges == []
    ensures Initial().nodes[0].id == "trigger-1"
    ensures KindOf(Initial().nodes[0].nodeType) == Some(Trigger)
    ensures Initial().nodes[0].data.agentId == None
    ensures !Initial().isExecuting && Initial().executionResults == None
  {
  }

  /** A drop: a falsy payload changes nothing; a truthy one appends exactly one node at
      the end and leaves every other node and every edge as it was. */
  function AfterDrop(s: Editor, payload: Option<Item>, now: nat, position: Position): (t: Editor)
    ensures payload.None? ==> t == s
    ensures payload.Some? ==> |t.nodes| == |s.nodes| + 1 && t.nodes[..|s.nodes|] == s.nodes
    ensures payload.Some? ==> t.nodes[|s.nodes|] == DroppedNode(payload.value, now, position)
    ensures t.edges == s.edges && t.isExecuting == s.isExecuting && t.executionResults == s.executionResults
  {
    match payload
    case None => s
    case Some(p) => s.(nodes := s.nodes + [DroppedNode(p, now, position)])
  }

  /** A connect: the edge list becomes what the graph library's `addEdge` makes of the
      new edge and the current list; nothing else changes. */
  function AfterConnect(s: Editor, params: Edge, addEdge: (Edge, seq<Edge>) -> seq<Edge>): (t: Editor)
    ensures t.nodes == s.nodes && t.isExecuting == s.isExecuting && t.executionResults == s.executionResults
    ensures t.edges == addEdge(params, s.edges)
  {
    s.(edges := addEdge(params, s.edges))
  }

  /** An execute: without a truthy pipeline id nothing changes; otherwise the recorded
      result reflects the outcome and the executing flag ends cleared. */
  function AfterExecute(s: Editor, pipelineId: Option<string>, outcome: ExecutionOutcome): (t: Editor)
    ensures !Truthy(pipelineId) ==> t == s
    ensures Truthy(pipelineId) ==> t.executionResults == Some(RecordedResult(outcome)) && !t.isExecuting
    ensures t.nodes == s.nodes && t.edges == s.edges
  {
    if Truthy(pipelineId) then s.(isExecuting := false, executionResults := Some(RecordedResult(outcome)))
    else s
  }

  /** Closing the results panel clears the recorded result. */
  function AfterClose(s: Editor): (t: Editor)
    ensures t.executionResults == None
    ensures t.nodes == s.nodes && t.edges == s.edges && t.isExecuting == s.isExecuting
  {
    s.(executionResults := None)
  }

  /** The results panel appears exactly when a result is recorded. */
  function ResultsPanel(s: Editor): (p: Option<Panel>)
    ensures p.Some? <==> s.executionResults.Some?
    ensures p.Some? ==> p.value == Render(s.executionResults.value)
  {
    match s.executionResults
    case Some(r) => Some(Render(r))
    case None => None
  }

  // ---------------------------------------------------------------------------
  // The save payload
  // ---------------------------------------------------------------------------

  /** A step as the save posts it. */
  datatype UiStep = UiStep(
    stepId: string,
    agentId: Option<string>,
    displayName: Option<string>,
    positionX: real,
    positionY: real,
    staticConfig: Config,
    stepType: string,
    enabled: bool)

  /** A connection as the save posts it. */
  datatype UiConnection = UiConnection(
    sourceStepId: string,
    targetStepId: string,
    sourcePort: string,
    targetPort: string,
    connectionType: string)

  /** The pipeline the save posts; the canvas layout is left out. */
  datatype PipelineData = PipelineData(
    pipelineId: string,
    displayName: string,
    description: string,
    createdBy: string,
    steps: seq<UiStep>,
    connections: seq<UiConnection>)

  /** Upper-casing a node type that is `undefined` throws a `TypeError`. */
  datatype SaveError = UndefinedNodeType(nodeId: string)

  predicate Typed(n: Node)
  {
    n.nodeType.Some?
  }

  function StepOf(n: Node): UiStep
    requires Typed(n)
  {
    UiStep(n.id, n.data.agentId, n.data.labelText, n.position.x, n.position.y, n.data.config,
           Upper(n.nodeType.value), true)
  }

  /** `nodes.map(...)`: one step per node, in node order; it throws at the first node
      whose type is undefined. */
  function Steps(nodes: seq<Node>): (r: Result<seq<UiStep>, SaveError>)
    ensures r.Success? <==> forall i :: 0 <= i < |nodes| ==> Typed(nodes[i])
    ensures r.Failure? ==> exists i :: 0 <= i < |nodes| && !Typed(nodes[i]) && r.error == UndefinedNodeType(nodes[i].id)
    ensures r.Success? ==> |r.value| == |nodes|
    ensures r.Success? ==> forall i :: 0 <= i < |nodes| ==>
      && r.value[i].stepId == nodes[i].id
      && r.value[i].agentId == nodes[i].data.agentId
      && r.value[i].displayName == nodes[i].data.labelText
      && r.value[i].staticConfig == nodes[i].data.config
      && r.value[i].positionX == nodes[i].position.x && r.value[i].positionY == nodes[i].position.y
      && r.value[i].stepType == Upper(nodes[i].nodeType.value)
      && r.value[i].enabled
  {
    if nodes == [] then Success([])
    else if !Typed(nodes[0]) then Failure(UndefinedNodeType(nodes[0].id))
    else
      match Steps(nodes[1..])
      case Success(rest) => Success([StepOf(nodes[0])] + rest)
      case Failure(e) => Failure(e)
  }

  function ConnectionOf(e: Edge): UiConnection
  {
    UiConnection(e.source, e.target, PortName(e.sourceHandle), PortName(e.targetHandle), "DATA")
  }

  /** `edges.map(...)`: one connection per edge, in edge order, with falsy handles
      replaced by "default" and the type always `DATA`. */
  function Connections(edges: seq<Edge>): (r: seq<UiConnection>)
    ensures |r| == |edges|
    ensures forall i :: 0 <= i < |edges| ==>
      && r[i].sourceStepId == edges[i].source
      && r[i].targetStepId == edges[i].target
      && (Truthy(edges[i].sourceHandle) ==> r[i].sourcePort == edges[i].sourceHandle.value)
      && (!Truthy(edges[i].sourceHandle) ==> r[i].sourcePort == DefaultPort)
      && (Truthy(edges[i].targetHandle) ==> r[i].targetPort == edges[i].targetHandle.value)
      && (!Truthy(edges[i].targetHandle) ==> r[i].targetPort == DefaultPort)
      && r[i].connectionType == "DATA"
  {
    if edges == [] then [] else [ConnectionOf(edges[0])] + Connections(edges[1..])
  }

  /** The id a save posts: the `pipelineId` prop when truthy, else one made from the
      time. */
  function SavedPipelineId(pipelineId: Option<string>, now: nat): (id: string)
    ensures Truthy(pipelineId) ==> id == pipelineId.value
    ensures !Truthy(pipelineId) ==> id == "pipeline-" + Decimal(now)
  {
    if Truthy(pipelineId) then pipelineId.value else "pipeline-" + Decimal(now)
  }

  /** The payload `handleSavePipeline` builds; `dateText` is the locale date text. */
  function SavePayload(nodes: seq<Node>, edges: seq<Edge>, pipelineId: Option<string>, now: nat, dateText: string)
    : (r: Result<PipelineData, SaveError>)
    ensures r.Success? <==> Steps(nodes).Success?
    ensures r.Failure? ==> r.error == Steps(nodes).error
    ensures r.Success? ==> r.value.pipelineId == SavedPipelineId(pipelineId, now)
    ensures r.Success? ==> r.value.steps == Steps(nodes).value && r.value.connections == Connections(edges)
    ensures r.Success? ==> r.value.displayName == "AI Pipeline " + dateText
    ensures r.Success? ==> r.value.description == "Created with visual pipeline builder"
    ensures r.Success? ==> r.value.createdBy == "current-user"
  {
    match Steps(nodes)
    case Failure(e) => Failure(e)
    case Success(steps) =>
      Success(PipelineData(
        SavedPipelineId(pipelineId, now),
        "AI Pipeline " + dateText,
        "Created with visual pipeline builder",
        "current-user",
        steps,
        Connections(edges)))
  }

  // ---------------------------------------------------------------------------
  // Ports of saved connections
  // ---------------------------------------------------------------------------

  /** The first node with the given id. */
  function FindNode(nodes: seq<Node>, id: string): (r: Option<Node>)
    ensures r.Some? ==> r.value in nodes && r.value.id == id
    ensures r.None? ==> forall n :: n in nodes ==> n.id != id
  {
    if nodes == [] then None
    else if nodes[0].id == id then Some(nodes[0])
    else FindNode(nodes[1..], id)
  }

  /** The kind of the node an id names, when it names a node of a registered kind. */
  function KindAt(nodes: seq<Node>, id: string): Option<NodeKind>
  {
    match FindNode(nodes, id)
    case Some(n) => KindOf(n.nodeType)
    case None => None
  }

  /** The edge joins a rendered source handle of its source node to the target handle
      of its target node: the only edges a drag between handles can create. */
  predicate UsesRenderedHandles(nodes: seq<Node>, e: Edge)
  {
    && KindAt(nodes, e.source).Some?
    && KindAt(nodes, e.target).Some?
    && e.sourceHandle in HandlesOf(KindAt(nodes, e.source).value).outputs
    && HandlesOf(KindAt(nodes, e.target).value).acceptsInput
    && e.targetHandle == None
  }

  /** A saved connection between rendered handles names a declared output port of its
      source kind and the target port "default". */
  lemma {:induction false} SavedPortsAreDeclared(nodes: seq<Node>, e: Edge)
    requires UsesRenderedHandles(nodes, e)
    ensures ConnectionOf(e).sourcePort in OutputPortNames(KindAt(nodes, e.source).value)
    ensures ConnectionOf(e).targetPort == DefaultPort
  {
    var k := KindAt(nodes, e.source).value;
    var outs := HandlesOf(k).outputs;
    var i :| 0 <= i < |outs| && outs[i] == e.sourceHandle;
    assert OutputPortNames(k)[i] == PortName(e.sourceHandle);
  }

  /** No rendered edge enters a trigger; every edge leaving one is saved with source
      port "default". */
  lemma TriggerEdges(nodes: seq<Node>, e: Edge)
    requires UsesRenderedHandles(nodes, e)
    ensures KindAt(nodes, e.target) != Some(Trigger)
    ensures KindAt(nodes, e.source) == Some(Trigger) ==> ConnectionOf(e).sourcePort == DefaultPort
  {
  }

  /** No edge leaving a condition or an approval is saved with source port "default". */
  lemma BranchEdgesNeverDefault(nodes: seq<Node>, e: Edge)
    requires UsesRenderedHandles(nodes, e)
    requires KindAt(nodes, e.source) in {Some(Condition), Some(Approval)}
    ensures ConnectionOf(e).sourcePort != DefaultPort
  {
    SavedPortsAreDeclared(nodes, e);
    ConditionPorts();
    ApprovalPorts();
  }

  // ---------------------------------------------------------------------------
  // Sessions: sequences of user actions
  // ---------------------------------------------------------------------------

  datatype UserAction =
    | DropItem(payload: Option<Item>, now: nat, position: Position)
    | ConnectHandles(params: Edge, addEdge: (Edge, seq<Edge>) -> seq<Edge>)
    | ClickSave(now: nat, dateText: string)
    | ClickExecute(outcome: ExecutionOutcome)
    | ClosePanel

  /** One user action on a canvas whose `pipelineId` prop is `pipelineId`. A save
      posts the payload and keeps nothing of the answer, so it changes no state. */
  function Apply(s: Editor, pipelineId: Option<string>, a: UserAction): Editor
  {
    match a
    case DropItem(payload, now, position) => AfterDrop(s, payload, now, position)
    case ConnectHandles(params, addEdge) => AfterConnect(s, params, addEdge)
    case ClickSave(_, _) => s
    case ClickExecute(outcome) => AfterExecute(s, pipelineId, outcome)
    case ClosePanel => AfterClose(s)
  }

  function Replay(s: Editor, pipelineId: Option<string>, actions: seq<UserAction>): Editor
    decreases |actions|
  {
    if actions == [] then s else Replay(Apply(s, pipelineId, actions[0]), pipelineId, actions[1..])
  }

  /** The application mounts the canvas on both of its routes without a `pipelineId`
      prop. */
  const ShippedPipelineId: Option<string> := None

  /** Without a pipeline id, no action ever records a result or leaves the canvas
      executing. */
  lemma {:induction false} IdleWithoutPipelineId(s: Editor, actions: seq<UserAction>)
    requires s.executionResults == None && !s.isExecuting
    ensures Replay(s, ShippedPipelineId, actions).executionResults == None
    ensures !Replay(s, ShippedPipelineId, actions).isExecuting
    decreases |actions|
  {
    if actions != [] {
      IdleWithoutPipelineId(Apply(s, ShippedPipelineId, actions[0]), actions[1..]);
    }
  }

  /** In the shipped application execute never issues a request, and whatever the user
      does the canvas never shows an execution result. */
  lemma ShippedAppNeverExecutes(actions: seq<UserAction>)
    ensures ExecuteCallFor(ShippedPipelineId) == None
    ensures Replay(Initial(), ShippedPipelineId, actions).executionResults == None
    ensures ResultsPanel(Replay(Initial(), ShippedPipelineId, actions)) == None
  {
    IdleWithoutPipelineId(Initial(), actions);
  }

  /** The nodes the truthy drops of a session add, in order. */
  function DroppedNodes(actions: seq<UserAction>): seq<Node>
    decreases |actions|
  {
    if actions == [] then []
    else
      var a := actions[0];
      (if a.DropItem? && a.payload.Some? then [DroppedNode(a.payload.value, a.now, a.position)] else [])
      + DroppedNodes(actions[1..])
  }

  /** The times of the truthy drops of a session, in order. */
  function DropTimes(actions: seq<UserAction>): seq<nat>
    decreases |actions|
  {
    if actions == [] then []
    else
      var a := actions[0];
      (if a.DropItem? && a.payload.Some? then [a.now] else []) + DropTimes(actions[1..])
  }

  /** Only drops change the node list, each appending its node. */
  lemma {:induction false} ReplayNodes(s: Editor, pipelineId: Option<string>, actions: seq<UserAction>)
    ensures Replay(s, pipelineId, actions).nodes == s.nodes + DroppedNodes(actions)
    decreases |actions|
  {
    if actions != [] {
      var a := actions[0];
      var t := Apply(s, pipelineId, a);
      var added := if a.DropItem? && a.payload.Some? then [DroppedNode(a.payload.value, a.now, a.position)] else [];
      assert t.nodes == s.nodes + added by {
        match a
        case DropItem(payload, now, position) =>
        case ConnectHandles(params, addEdge) =>
        case ClickSave(_, _) =>
        case ClickExecute(outcome) =>
        case ClosePanel =>
      }
      assert DroppedNodes(actions) == added + DroppedNodes(actions[1..]);
      ReplayNodes(t, pipelineId, actions[1..]);
    }
  }

  /** Every truthy drop comes from the sidebar, so its payload has type `agent`. */
  predicate SidebarDrops(actions: seq<UserAction>)
  {
    forall i :: 0 <= i < |actions| && actions[i].DropItem? && actions[i].payload.Some?
      ==> actions[i].payload.value.itemType == Some("agent")
  }

  /** The id of the node dropped from the sidebar at time `now`. */
  function AgentNodeId(now: nat): string
  {
    "agent-" + Decimal(now)
  }

  /** In a sidebar session the i-th dropped node is an `agent` whose id is made from the
      i-th drop time. */
  lemma {:induction false} SidebarDroppedNodes(actions: seq<UserAction>)
    requires SidebarDrops(actions)
    ensures |DroppedNodes(actions)| == |DropTimes(actions)|
    ensures forall i :: 0 <= i < |DroppedNodes(actions)| ==>
      DroppedNodes(actions)[i].id == AgentNodeId(DropTimes(actions)[i])
      && DroppedNodes(actions)[i].nodeType == Some("agent")
    decreases |actions|
  {
    if actions != [] {
      assert SidebarDrops(actions[1..]) by {
        forall i | 0 <= i < |actions[1..]| && actions[1..][i].DropItem? && actions[1..][i].payload.Some?
          ensures actions[1..][i].payload.value.itemType == Some("agent")
        {
          assert actions[1..][i] == actions[i + 1];
        }
      }
      SidebarDroppedNodes(actions[1..]);
    }
  }

  predicate IdsDistinct(nodes: seq<Node>)
  {
    forall i, j :: 0 <= i < j < |nodes| ==> nodes[i].id != nodes[j].id
  }

  predicate TimesDistinct(times: seq<nat>)
  {
    forall i, j :: 0 <= i < j < |times| ==> times[i] != times[j]
  }

  /** Sidebar nodes dropped at different times get different ids. */
  lemma AgentNodeIdsDistinct(a: nat, b: nat)
    ensures AgentNodeId(a) == AgentNodeId(b) <==> a == b
  {
    if AgentNodeId(a) == AgentNodeId(b) {
      SamePrefixCancels("agent-", Decimal(a), Decimal(b));
      DecimalInjective(a, b);
    }
  }

  /** No sidebar node takes the id of the initial trigger. */
  lemma AgentNodeIdNotInitial(a: nat)
    ensures AgentNodeId(a) != InitialTrigger.id
  {
    assert AgentNodeId(a)[0] == 'a';
  }

  /** Node ids stay unique through a sidebar session exactly as long as no two drops
      happen in the same millisecond. */
  lemma SidebarSessionIdsDistinct(pipelineId: Option<string>, actions: seq<UserAction>)
    requires SidebarDrops(actions)
    ensures IdsDistinct(Replay(Initial(), pipelineId, actions).nodes) <==> TimesDistinct(DropTimes(actions))
  {
    ReplayNodes(Initial(), pipelineId, actions);
    SidebarDroppedNodes(actions);
    var nodes := Replay(Initial(), pipelineId, actions).nodes;
    var dropped := DroppedNodes(actions);
    var times := DropTimes(actions);
    assert nodes == [InitialTrigger] + dropped;
    if TimesDistinct(times) {
      forall i, j | 0 <= i < j < |nodes|
        ensures nodes[i].id != nodes[j].id
      {
        AgentNodeIdNotInitial(times[j - 1]);
        if i > 0 {
          AgentNodeIdsDistinct(times[i - 1], times[j - 1]);
        }
      }
    } else {
      var i, j :| 0 <= i < j < |times| && times[i] == times[j];
      assert nodes[i + 1].id == nodes[j + 1].id;
    }
  }

  /** A sidebar session holds only trigger and agent nodes, all of registered kinds. */
  lemma SidebarSessionKinds(pipelineId: Option<string>, actions: seq<UserAction>, n: Node)
    requires SidebarDrops(actions)
    requires n in Replay(Initial(), pipelineId, actions).nodes
    ensures KindOf(n.nodeType) in {Some(Trigger), Some(Agent)}
  {
    ReplayNodes(Initial(), pipelineId, actions);
    SidebarDroppedNodes(actions);
  }

  /** The save payload of a sidebar session is always built: no node of it makes the
      steps' `toUpperCase` throw. */
  lemma SidebarSessionSaves(pipelineId: Option<string>, actions: seq<UserAction>, prop: Option<string>, now: nat, dateText: string)
    requires SidebarDrops(actions)
    ensures SavePayload(Replay(Initial(), pipelineId, actions).nodes, Replay(Initial(), pipelineId, actions).edges, prop, now, dateText).Success?
  {
    var nodes := Replay(Initial(), pipelineId, actions).nodes;
    forall i | 0 <= i < |nodes|
      ensures Typed(nodes[i])
    {
      SidebarSessionKinds(pipelineId, actions, nodes[i]);
    }
  }

  /** A payload of type `trigger` dropped at time 1 takes the id of the initial
      trigger: uniqueness of ids rests on the time alone. */
  lemma DroppedTriggerCanCollide(p: Item, position: Position)
    requires p.itemType == Some("trigger")
    ensures DroppedNode(p, 1, position).id == InitialTrigger.id
  {
  }

  // ---------------------------------------------------------------------------
  // The canvas component
  // ---------------------------------------------------------------------------

  class PipelineCanvas {
    var nodes: seq<Node>
    var edges: seq<Edge>
    var isExecuting: bool
    var executionResults: Option<ExecutionResult>

    function Snapshot(): Editor
      reads this
    {
      Editor(nodes, edges, isExecuting, executionResults)
    }

    constructor ()
      ensures Snapshot() == Initial()
    {
      nodes := [InitialTrigger];
      edges := [];
      isExecuting := false;
      executionResults := None;
    }

    /** `onDrop` with the parsed payload, the time and the projected position. */
    method Drop(payload: Option<Item>, now: nat, position: Position)
      modifies this
      ensures Snapshot() == AfterDrop(old(Snapshot()), payload, now, position)
    {
      if payload.None? {
        return;
      }
      var node := DroppedNode(payload.value, now, position);
      nodes := nodes + [node];
    }

    /** `onConnect`, with the graph library's edge-adding routine. */
    method Connect(params: Edge, addEdge: (Edge, seq<Edge>) -> seq<Edge>)
      modifies this
      ensures Snapshot() == AfterConnect(old(Snapshot()), params, addEdge)
    {
      edges := addEdge(params, edges);
    }

    /** `handleSavePipeline`: the payload it posts; the canvas is left as it was. */
    method Save(pipelineId: Option<string>, now: nat, dateText: string) returns (posted: Result<PipelineData, SaveError>)
      ensures posted == SavePayload(nodes, edges, pipelineId, now, dateText)
    {
      var steps := Steps(nodes);
      if steps.Failure? {
        return Failure(steps.error);
      }
      posted := Success(PipelineData(
        SavedPipelineId(pipelineId, now),
        "AI Pipeline " + dateText,
        "Created with visual pipeline builder",
        "current-user",
        steps.value,
        Connections(edges)));
    }

    /** `handleExecutePipeline` with the outcome of the backend call. `busyDuringCall`
        is the executing flag while the call is outstanding. */
    method Execute(pipelineId: Option<string>, outcome: ExecutionOutcome)
      returns (call: Option<ExecuteCall>, ghost busyDuringCall: bool)
      modifies this
      ensures call == ExecuteCallFor(pipelineId)
      ensures call.Some? ==> busyDuringCall
      ensures Snapshot() == AfterExecute(old(Snapshot()), pipelineId, outcome)
    {
      if !Truthy(pipelineId) {
        return None, false;
      }
      isExecuting := true;
      call := Some(ExecuteCall(pipelineId.value, TestRequest));
      busyDuringCall := isExecuting;
      match outcome {
        case Responded(result) =>
          executionResults := Some(result);
        case Threw(message) =>
          executionResults := Some(ErrorResult(message));
      }
      isExecuting := false;
    }

    /** The panel's close button. */
    method DismissResults()
      modifies this
      ensures Snapshot() == AfterClose(old(Snapshot()))
    {
      executionResults := None;
    }
  }
}

=== FILE: connection_model.dfy ===
/** The backend's pipeline connection entity: its connection-type vocabulary, the
    defaults a new connection starts from and the columns it declares non-null. */
module ConnectionModel {
  import opened Wrappers

  /** The connection types, in declaration order. */
  datatype ConnectionType = DATA | SUCCESS | ERROR | TRIGGER | CONDITION

  const ConnectionTypes: seq<ConnectionType> := [DATA, SUCCESS, ERROR, TRIGGER, CONDITION]

  function ConnectionTypeName(t: ConnectionType): string
  {
    match t
    case DATA => "DATA"
    case SUCCESS => "SUCCESS"
    case ERROR => "ERROR"
    case TRIGGER => "TRIGGER"
    case CONDITION => "CONDITION"
  }

  /** Reading a connection type by name; a name that is not a constant is rejected. */
  function ParseConnectionType(name: string): (r: Option<ConnectionType>)
    ensures r.Some? ==> ConnectionTypeName(r.value) == name
    ensures r.None? ==> forall t :: ConnectionTypeName(t) != name
  {
    if name == "DATA" then Some(DATA)
    else if name == "SUCCESS" then Some(SUCCESS)
    else if name == "ERROR" then Some(ERROR)
    else if name == "TRIGGER" then Some(TRIGGER)
    else if name == "CONDITION" then Some(CONDITION)
    else None
  }

  /** Every connection type reads back from its name. */
  lemma ConnectionTypeNameRoundTrip(t: ConnectionType)
    ensures ParseConnectionType(ConnectionTypeName(t)) == Some(t)
  {
  }

  /** The vocabulary is exactly the five constants, each listed once. */
  lemma ConnectionTypesExactly(t: ConnectionType)
    ensures t in ConnectionTypes
    ensures |ConnectionTypes| == 5
    ensures forall i, j :: 0 <= i < j < |ConnectionTypes| ==> ConnectionTypes[i] != ConnectionTypes[j]
  {
  }

  /** The connection fields that have initialisers or non-null columns. */
  datatype ConnectionEntity = ConnectionEntity(
    sourceStepId: Option<string>,
    targetStepId: Option<string>,
    sourcePort: Option<string>,
    targetPort: Option<string>,
    connectionType: Option<ConnectionType>)

  /** A connection as its no-argument constructor leaves it. */
  const NewConnectionEntity := ConnectionEntity(None, None, Some("default"), Some("default"), Some(DATA))

  /** The columns declared `nullable = false` hold values. */
  predicate NonNullColumnsSet(c: ConnectionEntity)
  {
    c.sourceStepId.Some? && c.targetStepId.Some?
  }

  /** A new connection uses port "default" at both ends and carries data; its
      endpoint columns are still null. */
  lemma NewConnectionDefaults()
    ensures NewConnectionEntity.sourcePort == Some("default")
    ensures NewConnectionEntity.targetPort == Some("default")
    ensures NewConnectionEntity.connectionType == Some(DATA)
    ensures !NonNullColumnsSet(NewConnectionEntity)
  {
  }
}

=== FILE: execution_view.dfy ===
/** The execution results panel: which view a result record selects (the error or the
    result), the status text and its colouring, and which optional rows appear. */
module ExecutionView {
  import opened Js

  /** A JSON value as it arrives in an execution response. An object or array is
      carried as the text `JSON.stringify(v, null, 2)` gives for it. */
  datatype Value = Undefined | Null | Bool(b: bool) | Num(n: int) | Str(s: string) | Composite(json: string)
  {
    /** JavaScript truthiness: `false`, `0`, `""`, `null` and `undefined` are falsy. */
    predicate Truthy()
    {
      match this
      case Bool(b) => b
      case Num(n) => n != 0
      case Str(s) => s != ""
      case Composite(_) => true
      case _ => false
    }
  }

  /** `JSON.stringify(v, null, 2)` of a truthy value. */
  function Stringify(v: Value): string
    requires v.Truthy()
  {
    match v
    case Bool(_) => "true"
    case Num(n) => if n < 0 then "-" + Decimal(-n) else Decimal(n)
    case Str(s) => "\"" + s + "\""
    case Composite(json) => json
  }

  /** The fields of an execution result that the panel reads. */
  datatype ExecutionResult = ExecutionResult(
    error: Value,
    status: Value,
    executionId: Value,
    executionTimeMs: Value,
    finalOutput: Value,
    stepResults: Value)

  /** `{ error: message }`, the result recorded when the execution request throws. */
  function ErrorResult(message: string): ExecutionResult
  {
    ExecutionResult(Str(message), Undefined, Undefined, Undefined, Undefined, Undefined)
  }

  const CompletedStatus := Str("COMPLETED")

  /** What a guarded row `{v && <row/>}` renders: nothing, the row, or, when `v` is
      the number 0, the bare text `0`. */
  datatype Slot<T> = Empty | BareZero | Row(content: T)

  /** The slot of a row guarded by `v`, showing `content` when `v` is truthy. */
  function Guarded<T>(v: Value, content: T): (slot: Slot<T>)
    ensures slot.Row? <==> v.Truthy()
    ensures slot.BareZero? <==> v == Num(0)
    ensures slot.Row? ==> slot.content == content
  {
    if v.Truthy() then Row(content) else if v == Num(0) then BareZero else Empty
  }

  /** What the panel shows: only the error, or the status badge (its text and whether
      it takes the completed colours) followed by the slots of the optional rows. */
  datatype Panel =
    | ErrorPanel(error: Value)
    | ResultPanel(
        statusText: Value,
        completedColours: bool,
        executionIdRow: Slot<Value>,
        durationRow: Slot<Value>,
        outputRow: Slot<string>,
        stepResultsRow: Slot<string>)

  /** Text shown for the final output: verbatim when it is a string, serialised
      otherwise. */
  function OutputText(v: Value): (text: string)
    requires v.Truthy()
    ensures v.Str? ==> text == v.s
    ensures !v.Str? ==> text == Stringify(v)
  {
    if v.Str? then v.s else Stringify(v)
  }

  /** The panel a result record selects. */
  function Render(r: ExecutionResult): (p: Panel)
    ensures p.ErrorPanel? <==> r.error.Truthy()
    ensures p.ErrorPanel? ==> p.error == r.error
    ensures p.ResultPanel? ==> p.statusText.Truthy()
    ensures p.ResultPanel? ==> (r.status.Truthy() ==> p.statusText == r.status)
    ensures p.ResultPanel? ==> (!r.status.Truthy() ==> p.statusText == CompletedStatus)
    ensures p.ResultPanel? ==> (p.completedColours <==> r.status == CompletedStatus)
    ensures p.ResultPanel? ==> (p.executionIdRow.Row? <==> r.executionId.Truthy())
    ensures p.ResultPanel? && r.executionId.Truthy() ==> p.executionIdRow == Row(r.executionId)
    ensures p.ResultPanel? ==> (p.executionIdRow.BareZero? <==> r.executionId == Num(0))
    ensures p.ResultPanel? ==> (p.durationRow.Row? <==> r.executionTimeMs.Truthy())
    ensures p.ResultPanel? && r.executionTimeMs.Truthy() ==> p.durationRow == Row(r.executionTimeMs)
    ensures p.ResultPanel? ==> (p.durationRow.BareZero? <==> r.executionTimeMs == Num(0))
    ensures p.ResultPanel? ==> (p.outputRow.Row? <==> r.finalOutput.Truthy())
    ensures p.ResultPanel? && r.finalOutput.Truthy() ==> p.outputRow == Row(OutputText(r.finalOutput))
    ensures p.ResultPanel? && r.finalOutput.Str? && r.finalOutput.Truthy() ==> p.outputRow == Row(r.finalOutput.s)
    ensures p.ResultPanel? ==> (p.outputRow.BareZero? <==> r.finalOutput == Num(0))
    ensures p.ResultPanel? ==> (p.stepResultsRow.Row? <==> r.stepResults.Truthy())
    ensures p.ResultPanel? && r.stepResults.Truthy() ==> p.stepResultsRow == Row(Stringify(r.stepResults))
    ensures p.ResultPanel? ==> (p.stepResultsRow.BareZero? <==> r.stepResults == Num(0))
  {
    if r.error.Truthy() then ErrorPanel(r.error)
    else
      ResultPanel(
        if r.status.Truthy() then r.status else CompletedStatus,
        r.status == CompletedStatus,
        Guarded(r.executionId, r.executionId),
        Guarded(r.executionTimeMs, r.executionTimeMs),
        if r.finalOutput.Truthy() then Row(OutputText(r.finalOutput)) else Guarded(r.finalOutput, ""),
        if r.stepResults.Truthy() then Row(Stringify(r.stepResults)) else Guarded(r.stepResults, ""))
  }

  /** A result with a missing status is labelled `COMPLETED` but keeps the
      not-completed colours. */
  lemma MissingStatusShowsCompletedUncoloured(r: ExecutionResult)
    requires !r.error.Truthy() && !r.status.Truthy()
    ensures Render(r).ResultPanel?
    ensures Render(r).statusText == CompletedStatus && !Render(r).completedColours
  {
  }

  /** A duration of 0 ms hides the duration row, and a bare `0` is rendered in its
      place. */
  lemma ZeroDurationHidden(r: ExecutionResult)
    requires !r.error.Truthy() && r.executionTimeMs == Num(0)
    ensures Render(r).ResultPanel? && Render(r).durationRow == BareZero
  {
  }

  /** A failure with a message shows only that message. */
  lemma FailureShowsOnlyError(message: string)
    requires message != ""
    ensures Render(ErrorResult(message)) == ErrorPanel(Str(message))
  {
  }

  /** A failure whose message is empty is not recognised as an error: it shows the
      status `COMPLETED` with no other row. */
  lemma EmptyMessageFailureLooksCompleted()
    ensures Render(ErrorResult("")) == ResultPanel(CompletedStatus, false, Empty, Empty, Empty, Empty)
  {
  }
}

=== FILE: js.dfy ===
/** The JavaScript conventions that the editor's expressions rely on: truthiness of
    possibly absent strings, `||` defaults, the decimal text of a number in a template
    literal, ASCII case conversion, `includes`, `replace` with a string pattern,
    `slice(0, n)` and `filter`. */
module Js {
  import opened Wrappers

  /** An opaque key-value configuration object, such as a node's `data.config`. */
  type Config = map<string, string>

  /** Truthiness of a string that may be `undefined` or `null` (`None`): the empty
      string is falsy too. */
  predicate Truthy(s: Option<string>)
  {
    s.Some? && s.value != ""
  }

  /** `a || b` on string-or-absent operands. */
  function Or(a: Option<string>, b: Option<string>): Option<string>
  {
    if Truthy(a) then a else b
  }

  /** A string-or-absent value inside a template literal: `undefined` renders as the
      word itself. */
  function Interpolate(s: Option<string>): string
  {
    match s
    case Some(v) => v
    case None => "undefined"
  }

  // ---------------------------------------------------------------------------
  // Decimal text of a timestamp (`${Date.now()}`)
  // ---------------------------------------------------------------------------

  function DigitChar(d: nat): (c: char)
    requires d < 10
    ensures '0' <= c <= '9'
  {
    ('0' as int + d) as char
  }

  /** The decimal digits of `n`, most significant first, without leading zeros. */
  function Decimal(n: nat): (r: string)
    ensures |r| >= 1
    ensures |r| == 1 <==> n < 10
    ensures forall i :: 0 <= i < |r| ==> '0' <= r[i] <= '9'
    ensures n >= 10 ==> r[0] != '0'
    decreases n
  {
    if n < 10 then [DigitChar(n)] else Decimal(n / 10) + [DigitChar(n % 10)]
  }

  /** Different numbers have different decimal texts. */
  lemma {:induction false} DecimalInjective(a: nat, b: nat)
    requires Decimal(a) == Decimal(b)
    ensures a == b
    decreases a
  {
    var da, db := Decimal(a), Decimal(b);
    if a >= 10 && b >= 10 {
      assert da[|da| - 1] == DigitChar(a % 10);
      assert db[|db| - 1] == DigitChar(b % 10);
      assert da[..|da| - 1] == Decimal(a / 10);
      assert db[..|db| - 1] == Decimal(b / 10);
      DecimalInjective(a / 10, b / 10);
    } else if a < 10 && b < 10 {
      assert da[0] == DigitChar(a);
      assert db[0] == DigitChar(b);
    }
  }

  /** The number a string of decimal digits stands for, read most significant first. */
  function DigitsValue(s: string): int
  {
    if s == [] then 0 else 10 * DigitsValue(s[..|s| - 1]) + (s[|s| - 1] as int - '0' as int)
  }

  /** The decimal text of `n` stands for `n`. */
  lemma {:induction false} DecimalValue(n: nat)
    ensures DigitsValue(Decimal(n)) == n
    decreases n
  {
    var d := Decimal(n);
    if n >= 10 {
      assert d[..|d| - 1] == Decimal(n / 10);
      assert d[|d| - 1] == DigitChar(n % 10);
      DecimalValue(n / 10);
    } else {
      assert d[..0] == [];
    }
  }

  /** Two texts that share a prefix are equal exactly when their remainders are. */
  lemma SamePrefixCancels(p: string, x: string, y: string)
    requires p + x == p + y
    ensures x == y
  {
    assert x == (p + x)[|p|..];
    assert y == (p + y)[|p|..];
  }

  // ---------------------------------------------------------------------------
  // ASCII case conversion (`toLowerCase`, `toUpperCase`)
  // ---------------------------------------------------------------------------

  predicate IsUpperAscii(c: char) { 'A' <= c <= 'Z' }

  predicate IsLowerAscii(c: char) { 'a' <= c <= 'z' }

  function LowerChar(c: char): char
  {
    if IsUpperAscii(c) then (c as int + 32) as char else c
  }

  function UpperChar(c: char): char
  {
    if IsLowerAscii(c) then (c as int - 32) as char else c
  }

  /** `s.toLowerCase()` restricted to ASCII letters. */
  function Lower(s: string): (r: string)
    ensures |r| == |s|
    ensures forall i :: 0 <= i < |r| ==> !IsUpperAscii(r[i])
    ensures forall i :: 0 <= i < |r| && IsUpperAscii(s[i]) ==> r[i] as int == s[i] as int + 32
    ensures forall i :: 0 <= i < |r| && !IsUpperAscii(s[i]) ==> r[i] == s[i]
  {
    if s == [] then [] else [LowerChar(s[0])] + Lower(s[1..])
  }

  /** `s.toUpperCase()` restricted to ASCII letters. */
  function Upper(s: string): (r: string)
    ensures |r| == |s|
    ensures forall i :: 0 <= i < |r| ==> !IsLowerAscii(r[i])
    ensures forall i :: 0 <= i < |r| && IsLowerAscii(s[i]) ==> r[i] as int == s[i] as int - 32
    ensures forall i :: 0 <= i < |r| && !IsLowerAscii(s[i]) ==> r[i] == s[i]
  {
    if s == [] then [] else [UpperChar(s[0])] + Upper(s[1..])
  }

  /** Lower-casing twice is lower-casing once. */
  lemma {:induction false} LowerIdempotent(s: string)
    ensures Lower(Lower(s)) == Lower(s)
  {
    if s != [] {
      LowerIdempotent(s[1..]);
      assert Lower(s)[1..] == Lower(s[1..]);
    }
  }

  /** Two characters are the same letter, possibly in different ASCII case. */
  predicate SameCharUpToCase(c: char, d: char)
  {
    || c == d
    || (IsUpperAscii(c) && d as int == c as int + 32)
    || (IsUpperAscii(d) && c as int == d as int + 32)
  }

  /** Two strings that differ at most in the ASCII case of their letters. */
  predicate SameUpToAsciiCase(a: string, b: string)
  {
    |a| == |b| && forall i :: 0 <= i < |a| ==> SameCharUpToCase(a[i], b[i])
  }

  /** Two characters lower-case alike exactly when they are the same letter up to case;
      `lc` and `ld` are their lower-case forms. */
  lemma LowerCharsEqualIffSameUpToCase(c: char, d: char, lc: char, ld: char)
    requires IsUpperAscii(c) ==> lc as int == c as int + 32
    requires !IsUpperAscii(c) ==> lc == c
    requires IsUpperAscii(d) ==> ld as int == d as int + 32
    requires !IsUpperAscii(d) ==> ld == d
    ensures lc == ld <==> SameCharUpToCase(c, d)
  {
  }

  /** Two strings lower-case alike exactly when they differ only in letter case. */
  lemma LowerEqualIffSameUpToCase(a: string, b: string)
    ensures Lower(a) == Lower(b) <==> SameUpToAsciiCase(a, b)
  {
    var la, lb := Lower(a), Lower(b);
    if |a| == |b| {
      forall i | 0 <= i < |a|
        ensures la[i] == lb[i] <==> SameCharUpToCase(a[i], b[i])
      {
        LowerCharsEqualIffSameUpToCase(a[i], b[i], la[i], lb[i]);
      }
      if SameUpToAsciiCase(a, b) {
        assert la == lb;
      }
    }
  }

  /** A string differs from its lower-cased form only in letter case. */
  lemma LowerSameUpToCase(s: string)
    ensures SameUpToAsciiCase(s, Lower(s))
  {
    LowerIdempotent(s);
    LowerEqualIffSameUpToCase(s, Lower(s));
  }

  // ---------------------------------------------------------------------------
  // `includes`
  // ---------------------------------------------------------------------------

  /** `t` occurs in `s` starting at index `i`. */
  predicate OccursAt(s: string, t: string, i: int)
  {
    0 <= i && i + |t| <= |s| && s[i..i + |t|] == t
  }

  /** `s.includes(t)`, defined by scanning `s` from the left. */
  predicate Contains(s: string, t: string)
    decreases |s|
  {
    (|t| <= |s| && s[..|t|] == t) || (|s| > 0 && Contains(s[1..], t))
  }

  /** The scan finds `t` exactly when `t` occurs somewhere in `s`. */
  lemma {:induction false} ContainsIffOccurs(s: string, t: string)
    ensures Contains(s, t) <==> exists i :: OccursAt(s, t, i)
    decreases |s|
  {
    if |t| <= |s| && s[..|t|] == t {
      assert OccursAt(s, t, 0);
    } else if |s| > 0 {
      ContainsIffOccurs(s[1..], t);
      if Contains(s[1..], t) {
        var i :| OccursAt(s[1..], t, i);
        assert s[1..][i..i + |t|] == s[i + 1..i + 1 + |t|];
        assert OccursAt(s, t, i + 1);
      } else {
        forall i | OccursAt(s, t, i)
          ensures false
        {
          assert i != 0;
          assert s[1..][i - 1..i - 1 + |t|] == s[i..i + |t|];
          assert OccursAt(s[1..], t, i - 1);
        }
      }
    }
  }

  /** Every string includes the empty string. */
  lemma ContainsEmpty(s: string)
    ensures Contains(s, "")
  {
    assert s[..0] == "";
  }

  // ---------------------------------------------------------------------------
  // `replace` with a one-character string pattern
  // ---------------------------------------------------------------------------

  /** The index of the first occurrence of `c` in `s`. */
  function IndexOf(s: string, c: char): (i: nat)
    requires c in s
    ensures i < |s| && s[i] == c
    ensures forall j :: 0 <= j < i ==> s[j] != c
  {
    if s[0] == c then 0 else 1 + IndexOf(s[1..], c)
  }

  /** `s.replace(a, b)` for one-character strings `a` and `b`: a string pattern
      replaces only its first occurrence. */
  function ReplaceFirst(s: string, a: char, b: char): (r: string)
    ensures |r| == |s|
    ensures a !in s ==> r == s
    ensures a in s ==> r[IndexOf(s, a)] == b
    ensures a in s ==> forall j :: 0 <= j < |s| && j != IndexOf(s, a) ==> r[j] == s[j]
  {
    if s == [] then []
    else if s[0] == a then [b] + s[1..]
    else [s[0]] + ReplaceFirst(s[1..], a, b)
  }

  // ---------------------------------------------------------------------------
  // `slice(0, n)` and `filter`
  // ---------------------------------------------------------------------------

  /** `xs.slice(0, n)`: the first `n` elements, or all of them when there are fewer. */
  function Take<T>(xs: seq<T>, n: nat): (r: seq<T>)
    ensures |r| <= n && |r| <= |xs|
    ensures r == xs[..|r|]
    ensures |xs| <= n ==> r == xs
    ensures n <= |xs| ==> |r| == n
  {
    if |xs| <= n then xs else xs[..n]
  }

  /** `a` can be obtained from `b` by deleting elements, keeping the order. */
  predicate IsSubsequence<T(==)>(a: seq<T>, b: seq<T>)
    decreases |b|
  {
    a == [] || (|b| > 0 && ((a[0] == b[0] && IsSubsequence(a[1..], b[1..])) || IsSubsequence(a, b[1..])))
  }

  /** `xs.filter(keep)`: the kept elements, each as often as in `xs`, in their order. */
  function Filter<T(==,!new)>(xs: seq<T>, keep: T -> bool): (r: seq<T>)
    ensures forall x :: x in r <==> x in xs && keep(x)
    ensures forall x :: multiset(r)[x] == if keep(x) then multiset(xs)[x] else 0
    ensures IsSubsequence(r, xs)
  {
    if xs == [] then []
    else
      var rest := Filter(xs[1..], keep);
      assert xs == [xs[0]] + xs[1..];
      if keep(xs[0]) then
        assert ([xs[0]] + rest)[1..] == rest;
        [xs[0]] + rest
      else rest
  }

  /** When every element is kept, `filter` returns the list unchanged. */
  lemma {:induction false} FilterKeepsAll<T(!new)>(xs: seq<T>, keep: T -> bool)
    requires forall x :: x in xs ==> keep(x)
    ensures Filter(xs, keep) == xs
  {
    if xs != [] {
      FilterKeepsAll(xs[1..], keep);
    }
  }
}

=== FILE: palette.dfy ===
/** The agent palette of the sidebar: the search-and-category filter over the agent
    list, the fixed pipeline components and the payload a drag carries to the canvas. */
module Palette {
  import opened Wrappers
  import opened Js
  import opened Search

  /** A palette entry: a catalog agent or one of the pipeline components. Catalog
      agents carry `agentId`, `category` and `tags`; components carry `id` and `type`.
      Schemas are opaque JSON text. */
  datatype Item = Item(
    id: Option<string>,
    agentId: Option<string>,
    displayName: string,
    description: string,
    category: Option<string>,
    tags: Option<seq<string>>,
    itemType: Option<string>,
    config: Option<Config>,
    inputSchema: Option<string>,
    outputSchema: Option<string>)

  /** The category that shows every agent. */
  const AllCategory := "all"

  /** The category buttons of the sidebar, by id. */
  const CategoryIds: seq<string> := [AllCategory, "content", "media", "social", "workflow"]

  predicate MatchesSearch(a: Item, term: string)
  {
    SearchMatches(a.displayName, a.description, a.tags, term)
  }

  predicate MatchesCategory(a: Item, selected: string)
  {
    selected == AllCategory || a.category == Some(selected)
  }

  /** `filteredAgents`: the agents that match both the search and the category, in
      list order. */
  function FilterAgents(agents: seq<Item>, term: string, selected: string): (r: seq<Item>)
    ensures forall a :: a in r <==> a in agents && MatchesSearch(a, term) && MatchesCategory(a, selected)
    ensures forall a :: multiset(r)[a] == if MatchesSearch(a, term) && MatchesCategory(a, selected) then multiset(agents)[a] else 0
    ensures IsSubsequence(r, agents)
  {
    Filter(agents, a => MatchesSearch(a, term) && MatchesCategory(a, selected))
  }

  /** With the empty search and category `all`, every agent is listed. */
  lemma EmptySearchAllCategoryListsEveryAgent(agents: seq<Item>)
    ensures FilterAgents(agents, "", AllCategory) == agents
  {
    forall a | a in agents
      ensures MatchesSearch(a, "") && MatchesCategory(a, AllCategory)
    {
      EmptyTermMatches(a.displayName, a.description, a.tags);
    }
    FilterKeepsAll(agents, a => MatchesSearch(a, "") && MatchesCategory(a, AllCategory));
  }

  /** A category other than `all` lists only agents of exactly that category. */
  lemma CategoryIsExact(agents: seq<Item>, term: string, selected: string, a: Item)
    requires selected != AllCategory
    requires a in FilterAgents(agents, term, selected)
    ensures a.category == Some(selected)
  {
  }

  /** The first category button shows every agent; every other button lists only the
      agents of its own category. */
  lemma CategoryButtonsFilter(agents: seq<Item>, term: string, i: int, a: Item)
    requires 0 <= i < |CategoryIds|
    ensures CategoryIds[0] == AllCategory
    ensures i > 0 && a in FilterAgents(agents, term, CategoryIds[i]) ==> a.category == Some(CategoryIds[i])
    ensures i > 0 && a in agents && MatchesSearch(a, term) && a.category == Some(CategoryIds[i])
      ==> a in FilterAgents(agents, term, CategoryIds[i])
  {
  }

  /** `{...agent, type: 'agent'}`: the drag payload keeps every field of the item and
      overwrites its type with `agent`. */
  function DragPayload(item: Item): (p: Item)
    ensures p.itemType == Some("agent")
    ensures p.(itemType := item.itemType) == item
  {
    item.(itemType := Some("agent"))
  }

  /** The pipeline components listed above the agents. */
  const SpecialNodes: seq<Item> := [
    Item(Some("trigger"), None, "Pipeline Trigger", "Start point for your pipeline", None, None, Some("trigger"), None, None, None),
    Item(Some("condition"), None, "Condition", "Conditional branching logic", None, None, Some("condition"), None, None, None),
    Item(Some("approval"), None, "Human Approval", "Require human approval", None, None, Some("approval"), None, None, None),
    Item(Some("delay"), None, "Delay", "Wait for specified time", None, None, Some("delay"), None, None, None)
  ]

  /** Every pipeline component is dragged as an `agent`, although none of them has
      that type. */
  lemma SpecialNodesDragAsAgents(i: int)
    requires 0 <= i < |SpecialNodes|
    ensures SpecialNodes[i].itemType != Some("agent")
    ensures DragPayload(SpecialNodes[i]).itemType == Some("agent")
  {
  }

  /** `agent.tags && agent.tags.slice(0, 3)`: at most the first three tags are listed. */
  function TagsShown(a: Item): (shown: Option<seq<string>>)
    ensures shown.Some? <==> a.tags.Some?
    ensures shown.Some? ==> |shown.value| <= 3 && |shown.value| <= |a.tags.value| && shown.value == a.tags.value[..|shown.value|]
    ensures shown.Some? && |a.tags.value| <= 3 ==> shown.value == a.tags.value
    ensures shown.Some? ==> |shown.value| == if |a.tags.value| < 3 then |a.tags.value| else 3
  {
    match a.tags
    case Some(ts) => Some(Take(ts, 3))
    case None => None
  }
}

=== FILE: ports.dfy ===
/** The node-kind registry: the `nodeTypes` map of the canvas and the handles each
    node component renders. A rendered handle is a port; a `target` handle lets the
    node accept inbound connections, each `source` handle is an output port, named by
    its `id` or unnamed. */
module Ports {
  import opened Wrappers
  import opened Js

  datatype NodeKind = Trigger | Agent | Condition | Approval

  /** The port contract of a kind: whether it renders a target handle, and the `id`
      of each source handle in render order (`None` for a handle without an id). */
  datatype Handles = Handles(acceptsInput: bool, outputs: seq<Option<string>>)

  /** The handles of `TriggerNode`, `AgentNode`, `ConditionNode` and `ApprovalNode`. */
  function HandlesOf(k: NodeKind): Handles
  {
    match k
    case Trigger => Handles(false, [None])
    case Agent => Handles(true, [None, Some("error")])
    case Condition => Handles(true, [Some("true"), Some("false")])
    case Approval => Handles(true, [Some("approved"), Some("rejected")])
  }

  /** The `nodeTypes` key each node component is registered under. */
  function KindName(k: NodeKind): string
  {
    match k
    case Trigger => "trigger"
    case Agent => "agent"
    case Condition => "condition"
    case Approval => "approval"
  }

  /** The `nodeTypes` lookup: the node component React Flow renders for a node's
      `type`. Any other type has no registered component. */
  function KindOf(nodeType: Option<string>): (k: Option<NodeKind>)
    ensures k.Some? ==> nodeType == Some(KindName(k.value))
    ensures k.None? ==> forall kind :: nodeType != Some(KindName(kind))
  {
    match nodeType
    case Some("agent") => Some(Agent)
    case Some("trigger") => Some(Trigger)
    case Some("condition") => Some(Condition)
    case Some("approval") => Some(Approval)
    case _ => None
  }

  /** The literal the saved connection falls back to when a handle is falsy. */
  const DefaultPort := "default"

  /** `handle || 'default'`: the port name a handle serialises to. */
  function PortName(handle: Option<string>): (name: string)
    ensures name != ""
    ensures Truthy(handle) ==> name == handle.value
    ensures !Truthy(handle) ==> name == DefaultPort
  {
    if Truthy(handle) then handle.value else DefaultPort
  }

  /** The port names the outputs of a kind serialise to, in render order. */
  function OutputPortNames(k: NodeKind): (names: seq<string>)
    ensures |names| == |HandlesOf(k).outputs|
    ensures forall i :: 0 <= i < |names| ==> (names[i] == DefaultPort <==> HandlesOf(k).outputs[i] == None)
    ensures forall i :: 0 <= i < |names| && HandlesOf(k).outputs[i].Some? ==> names[i] == HandlesOf(k).outputs[i].value
  {
    var outs := HandlesOf(k).outputs;
    seq(|outs|, i requires 0 <= i < |outs| => PortName(outs[i]))
  }

  /** Each component is found under its own key, and under no other. */
  lemma KindNameRoundTrip(k: NodeKind, t: string)
    ensures KindOf(Some(KindName(k))) == Some(k)
    ensures KindOf(Some(t)) == Some(k) ==> t == KindName(k)
  {
  }

  /** Only the registered kinds are the four node components. */
  lemma KindOfRegistered(t: string)
    ensures KindOf(Some(t)).Some? <==> t in {"agent", "trigger", "condition", "approval"}
  {
  }

  /** A trigger renders no target handle and exactly one unnamed source handle, so it
      accepts no inbound connection and its edges leave through port "default". */
  lemma TriggerPorts()
    ensures !HandlesOf(Trigger).acceptsInput
    ensures HandlesOf(Trigger).outputs == [None]
    ensures OutputPortNames(Trigger) == [DefaultPort]
  {
  }

  /** An agent accepts input and has exactly the unnamed output and the `error` output. */
  lemma AgentPorts()
    ensures HandlesOf(Agent).acceptsInput
    ensures OutputPortNames(Agent) == [DefaultPort, "error"]
  {
  }

  /** A condition accepts input and has exactly the outputs `true` and `false`, none of
      them unnamed, so no edge leaves it through "default". */
  lemma ConditionPorts()
    ensures HandlesOf(Condition).acceptsInput
    ensures OutputPortNames(Condition) == ["true", "false"]
    ensures None !in HandlesOf(Condition).outputs
    ensures DefaultPort !in OutputPortNames(Condition)
  {
  }

  /** An approval accepts input and has exactly the outputs `approved` and `rejected`,
      none of them unnamed. */
  lemma ApprovalPorts()
    ensures HandlesOf(Approval).acceptsInput
    ensures OutputPortNames(Approval) == ["approved", "rejected"]
    ensures None !in HandlesOf(Approval).outputs
    ensures DefaultPort !in OutputPortNames(Approval)
  {
  }

  /** Every kind except the trigger accepts input, through one unnamed target handle. */
  lemma OnlyTriggerRejectsInput(k: NodeKind)
    ensures HandlesOf(k).acceptsInput <==> k != Trigger
  {
  }

  /** Within a kind, different output handles serialise to different port names. */
  lemma OutputPortNamesDistinct(k: NodeKind, i: int, j: int)
    requires 0 <= i < j < |OutputPortNames(k)|
    ensures OutputPortNames(k)[i] != OutputPortNames(k)[j]
  {
  }

  /** `data.triggerType || 'manual'`: the subtitle of a trigger node. */
  function TriggerSubtitle(triggerType: Option<string>): (s: string)
    ensures s != ""
    ensures Truthy(triggerType) ==> s == triggerType.value
    ensures !Truthy(triggerType) ==> s == "manual"
  {
    if Truthy(triggerType) then triggerType.value else "manual"
  }

  /** An agent node shows its `agentId` line exactly when the id is truthy. */
  function AgentIdLine(agentId: Option<string>): (line: Option<string>)
    ensures line.Some? <==> Truthy(agentId)
    ensures line.Some? ==> line == agentId
  {
    if Truthy(agentId) then agentId else None
  }
}

=== FILE: search.dfy ===
/** The search test shared by the agent palette and the template marketplace: the
    search term, lower-cased, must be included in the lower-cased display name, the
    lower-cased description or any lower-cased tag. */
module Search {
  import opened Wrappers
  import opened Js

  /** `tags?.some(tag => tag.toLowerCase().includes(t))`; absent tags match nothing. */
  predicate SomeTagContains(tags: Option<seq<string>>, t: string)
  {
    tags.Some? && exists tag :: tag in tags.value && Contains(Lower(tag), t)
  }

  /** The search expression of both lists, on an entry's name, description and tags. */
  predicate SearchMatches(name: string, description: string, tags: Option<seq<string>>, term: string)
  {
    var t := Lower(term);
    Contains(Lower(name), t) || Contains(Lower(description), t) || SomeTagContains(tags, t)
  }

  /** The empty search term matches every entry. */
  lemma EmptyTermMatches(name: string, description: string, tags: Option<seq<string>>)
    ensures SearchMatches(name, description, tags, "")
  {
    assert Lower("") == "";
    ContainsEmpty(Lower(name));
  }

  /** Two optional tag lists that differ at most in the letter case of their tags. */
  predicate TagsSameUpToCase(a: Option<seq<string>>, b: Option<seq<string>>)
  {
    || (a.None? && b.None?)
    || (&& a.Some? && b.Some? && |a.value| == |b.value|
        && forall i :: 0 <= i < |a.value| ==> SameUpToAsciiCase(a.value[i], b.value[i]))
  }

  /** Tags that differ only in letter case contain a lower-cased term alike. */
  lemma TagsIgnoreCase(tags: Option<seq<string>>, tags': Option<seq<string>>, t: string)
    requires TagsSameUpToCase(tags, tags')
    ensures SomeTagContains(tags, t) <==> SomeTagContains(tags', t)
  {
    if SomeTagContains(tags, t) {
      var tag :| tag in tags.value && Contains(Lower(tag), t);
      var i :| 0 <= i < |tags.value| && tags.value[i] == tag;
      LowerEqualIffSameUpToCase(tag, tags'.value[i]);
      assert tags'.value[i] in tags'.value;
    }
    if SomeTagContains(tags', t) {
      var tag :| tag in tags'.value && Contains(Lower(tag), t);
      var i :| 0 <= i < |tags'.value| && tags'.value[i] == tag;
      LowerEqualIffSameUpToCase(tags.value[i], tag);
      assert tags.value[i] in tags.value;
    }
  }

  /** The search ignores letter case: entries and terms that differ only in the case of
      their letters give the same outcome. */
  lemma SearchIgnoresCase(
    name: string, name': string, description: string, description': string,
    tags: Option<seq<string>>, tags': Option<seq<string>>, term: string, term': string)
    requires SameUpToAsciiCase(name, name') && SameUpToAsciiCase(description, description')
    requires TagsSameUpToCase(tags, tags') && SameUpToAsciiCase(term, term')
    ensures SearchMatches(name, description, tags, term) == SearchMatches(name', description', tags', term')
  {
    LowerEqualIffSameUpToCase(name, name');
    LowerEqualIffSameUpToCase(description, description');
    LowerEqualIffSameUpToCase(term, term');
    TagsIgnoreCase(tags, tags', Lower(term));
  }

  /** A term and any spelling of it in other letter case select the same entries. */
  lemma SearchIgnoresTermCase(name: string, description: string, tags: Option<seq<string>>, term: string, term': string)
    requires SameUpToAsciiCase(term, term')
    ensures SearchMatches(name, description, tags, term) == SearchMatches(name, description, tags, term')
  {
    LowerEqualIffSameUpToCase(term, term');
  }

  /** An entry's name may be spelt in any letter case without changing the outcome. */
  lemma SearchIgnoresNameCase(name: string, name': string, description: string, tags: Option<seq<string>>, term: string)
    requires SameUpToAsciiCase(name, name')
    ensures SearchMatches(name, description, tags, term) == SearchMatches(name', description, tags, term)
  {
    LowerEqualIffSameUpToCase(name, name');
  }

  /** A term found anywhere in the name matches, whatever the description and tags. */
  lemma NameHitMatches(name: string, description: string, tags: Option<seq<string>>, term: string, i: int)
    requires OccursAt(Lower(name), Lower(term), i)
    ensures SearchMatches(name, description, tags, term)
  {
    ContainsIffOccurs(Lower(name), Lower(term));
  }
}

=== FILE: step_model.dfy ===
/** The backend's pipeline step entity: its step-type vocabulary, the defaults a new
    step starts from and the columns it declares non-null. */
module StepModel {
  import opened Wrappers

  /** The step types, in declaration order. */
  datatype StepType = AGENT | TRIGGER | CONDITION | LOOP | PARALLEL | HUMAN_APPROVAL | DELAY | WEBHOOK

  const StepTypes: seq<StepType> := [AGENT, TRIGGER, CONDITION, LOOP, PARALLEL, HUMAN_APPROVAL, DELAY, WEBHOOK]

  /** The wire name of a step type (its enum constant name). */
  function StepTypeName(t: StepType): string
  {
    match t
    case AGENT => "AGENT"
    case TRIGGER => "TRIGGER"
    case CONDITION => "CONDITION"
    case LOOP => "LOOP"
    case PARALLEL => "PARALLEL"
    case HUMAN_APPROVAL => "HUMAN_APPROVAL"
    case DELAY => "DELAY"
    case WEBHOOK => "WEBHOOK"
  }

  /** Reading a step type by name; a name that is not a constant is rejected. */
  function ParseStepType(name: string): (r: Option<StepType>)
    ensures r.Some? ==> StepTypeName(r.value) == name
    ensures r.None? ==> forall t :: StepTypeName(t) != name
  {
    if name == "AGENT" then Some(AGENT)
    else if name == "TRIGGER" then Some(TRIGGER)
    else if name == "CONDITION" then Some(CONDITION)
    else if name == "LOOP" then Some(LOOP)
    else if name == "PARALLEL" then Some(PARALLEL)
    else if name == "HUMAN_APPROVAL" then Some(HUMAN_APPROVAL)
    else if name == "DELAY" then Some(DELAY)
    else if name == "WEBHOOK" then Some(WEBHOOK)
    else None
  }

  /** Every step type reads back from its name. */
  lemma StepTypeNameRoundTrip(t: StepType)
    ensures ParseStepType(StepTypeName(t)) == Some(t)
  {
  }

  /** The vocabulary is exactly the eight constants, each listed once. */
  lemma StepTypesExactly(t: StepType)
    ensures t in StepTypes
    ensures |StepTypes| == 8
    ensures forall i, j :: 0 <= i < j < |StepTypes| ==> StepTypes[i] != StepTypes[j]
  {
  }

  /** The step fields that have initialisers or non-null columns; `None` is null. */
  datatype StepEntity = StepEntity(
    stepId: Option<string>,
    agentId: Option<string>,
    displayName: Option<string>,
    timeoutSeconds: Option<int>,
    maxRetries: Option<int>,
    enabled: Option<bool>,
    stepType: Option<StepType>)

  /** A step as its no-argument constructor leaves it. */
  const NewStepEntity := StepEntity(None, None, None, Some(300), Some(3), Some(true), Some(AGENT))

  /** The columns declared `nullable = false` hold values. */
  predicate NonNullColumnsSet(e: StepEntity)
  {
    e.stepId.Some? && e.agentId.Some? && e.displayName.Some?
  }

  /** A new step runs for up to 300 seconds, retries 3 times, is enabled and is an
      agent step; its identifying columns are still null. */
  lemma NewStepDefaults()
    ensures NewStepEntity.timeoutSeconds == Some(300)
    ensures NewStepEntity.maxRetries == Some(3)
    ensures NewStepEntity.enabled == Some(true)
    ensures NewStepEntity.stepType == Some(AGENT)
    ensures !NonNullColumnsSet(NewStepEntity)
  {
  }
}

=== FILE: templates.dfy ===
/** The template marketplace: the search filter over the template list, the query
    parameters of the template request, the category list and its button labels. */
module Templates {
  import opened Wrappers
  import opened Js
  import opened Search

  /** A template as listed; author, usage count, rating, credentials and cost are only
      displayed. */
  datatype Template = Template(
    templateId: string,
    displayName: string,
    description: string,
    category: Option<string>,
    tags: Option<seq<string>>)

  /** The outcome of a catalog request. */
  datatype Fetched<T> = Loaded(data: T) | FetchFailed

  const AllCategory := "all"

  predicate TemplateMatches(t: Template, term: string)
  {
    SearchMatches(t.displayName, t.description, t.tags, term)
  }

  /** `filteredTemplates`: the templates that match the search, in list order. There is
      no category check here: the category selects what the server returns. */
  function FilterTemplates(templates: seq<Template>, term: string): (r: seq<Template>)
    ensures forall t :: t in r <==> t in templates && TemplateMatches(t, term)
    ensures forall t :: multiset(r)[t] == if TemplateMatches(t, term) then multiset(templates)[t] else 0
    ensures IsSubsequence(r, templates)
  {
    Filter(templates, t => TemplateMatches(t, term))
  }

  /** The empty search keeps every template, whatever their categories. */
  lemma EmptySearchKeepsEveryTemplate(templates: seq<Template>)
    ensures FilterTemplates(templates, "") == templates
  {
    forall t | t in templates
      ensures TemplateMatches(t, "")
    {
      EmptyTermMatches(t.displayName, t.description, t.tags);
    }
    FilterKeepsAll(templates, t => TemplateMatches(t, ""));
  }

  /** The category of a template plays no part in the client-side filter. */
  lemma FilterIgnoresCategory(term: string, t: Template, c: Option<string>)
    ensures TemplateMatches(t, term) == TemplateMatches(t.(category := c), term)
  {
  }

  /** The request parameters: `{category}` unless `all` is selected, else `{}`. */
  function FetchParams(selected: string): (params: map<string, string>)
    ensures "category" in params <==> selected != AllCategory
    ensures params.Keys <= {"category"}
    ensures "category" in params ==> params["category"] == selected
  {
    if selected != AllCategory then map["category" := selected] else map[]
  }

  /** The fixed list used when the category request fails. */
  const FallbackCategories: seq<string> := [AllCategory, "social-media", "research", "marketing", "analytics"]

  /** `['all', ...data]` on success, the fixed five on failure. */
  function CategoryList(response: Fetched<seq<string>>): (cats: seq<string>)
    ensures |cats| >= 1 && cats[0] == AllCategory
    ensures response.Loaded? ==> cats[1..] == response.data
    ensures response.FetchFailed? ==> |cats| == 5 && cats == FallbackCategories
  {
    match response
    case Loaded(data) => [AllCategory] + data
    case FetchFailed => FallbackCategories
  }

  /** `category.replace('-', ' ')`: only the first dash becomes a space. */
  function CategoryLabel(category: string): (text: string)
    ensures |text| == |category|
    ensures '-' !in category ==> text == category
    ensures '-' in category ==> text[IndexOf(category, '-')] == ' '
    ensures '-' in category ==>
      forall j :: 0 <= j < |category| && j != IndexOf(category, '-') ==> text[j] == category[j]
  {
    ReplaceFirst(category, '-', ' ')
  }

  /** A category with two dashes keeps its second dash in the label. */
  lemma SecondDashKept()
    ensures CategoryLabel("a-b-c") == "a b-c"
  {
    assert IndexOf("a-b-c", '-') == 1;
  }

  /** `template.tags?.slice(0, 3)`: at most the first three tags are listed. */
  function TagsShown(t: Template): (shown: Option<seq<string>>)
    ensures shown.Some? <==> t.tags.Some?
    ensures shown.Some? ==> |shown.value| <= 3 && |shown.value| <= |t.tags.value| && shown.value == t.tags.value[..|shown.value|]
    ensures shown.Some? ==> |shown.value| == if |t.tags.value| < 3 then |t.tags.value| else 3
  {
    match t.tags
    case Some(ts) => Some(Take(ts, 3))
    case None => None
  }
}

=== FILE: wrappers.dfy ===
/** Optional values and results, used for JavaScript's `undefined`/`null` and for
    operations that throw. */
module Wrappers {

  datatype Option<+T> = None | Some(value: T)

  datatype Result<+R, +E> = Success(value: R) | Failure(error: E)
}
